=== FILE: README.md ===
# Stock-market paper trading: a Dafny model of the bookkeeping core

This project models the account bookkeeping of the StockMarketAnalysis
backend and two small computations of its web front end:

- **`PaperTrading`** is the Python paper-trading ledger (`backend/papertrading.py`). It is a JSON store of per-user accounts. It covers `place_trade` with its balance reset, the read-only history and performance queries, and the buy-and-hold backtest.
- **`MongoLedger`** holds what both Express ledgers share: the Mongo Trade and Portfolio records, and the newest-first `GET /history` query.
- **`PaperTradeRoutes`** is the authenticated Express ledger (`backend/paperTradeRoutes.js`):
  - it validates every request fully;
  - it records a Trade before the funds and shares checks;
  - it deletes a position that reaches zero.
- **`TradingRoutes`** is the unauthenticated Express ledger (`backend/routes/tradingRoutes.js`):
  - it only checks for missing fields;
  - it keeps zero positions;
  - it records a Trade only after the portfolio was saved;
  - it has `add-funds`.
- **`LedgerAgreement`** compares the two Express ledgers on the same database.
- **`Watchlist`** is the JSON watchlist keyed on (user, symbol) (`backend/watchlist.py`).
- **`AlertChecker`** is the price-alert sweep and the endpoint and field priority of its price lookup (`backend/checker.py`).
- **`PortfolioView`** is the weighted-average buy-price fold and the holding and summary arithmetic of the portfolio page (`frontend/src/app/Portfolio/page.tsx`).
- **`HoldPeriod`** is the day-count to period-label bucketing of the hold-stock form (`frontend/src/app/HoldStock/page.tsx`).

Persistence is modelled by passing the store in and returning the store that
would be written:

- a Python dictionary or JSON file becomes a Dafny `map` or `seq`;
- a Mongo collection becomes a `map` of portfolios and a `seq` of trades.

The wall clock is a `now` parameter. The network is an oracle parameter:
`get` for HTTP responses and `quote` for the portfolio page's prices. The
alert sweep instead takes the result of each alert's own price lookup,
since it calls `fetch_price` once per alert. Money and JavaScript
quantities are exact `real`s. Python share quantities are `int`, as the
type hint says. A JavaScript-falsy field (`undefined`, `""`, `0`) is the
empty string or `0`.

## Model

| member | source | states |
|---|---|---|
| `PaperTrading.PlaceTrade` | backend/papertrading.py:21-47 | Every path except an accepted trade leaves the store unchanged, including the lazily created account and the balance reset. A buy is accepted iff the (reset) balance covers qty*price. A sell is rejected iff the held quantity (0 when absent) is below qty. A sell raises KeyError iff qty <= 0 on a symbol never held. The error strings match the source, and any side other than buy or sell is rejected as invalid. An accepted trade debits or credits exactly qty*price and moves the position by qty, keeping a zero key. An accepted trade saves only that user's account, with one record appended at the end. |
| `PaperTrading.GetPerformance` | backend/papertrading.py:56-61 | An unknown user reports balance 100000 and no positions. A missing balance or one >= 1000000 reports 100000. Otherwise the stored balance and positions are reported. |
| `PaperTrading.GetHistory` | backend/papertrading.py:50-53 | An unknown user has an empty history. |
| `PaperTrading.PlaceTradeKeepsSound` | backend/papertrading.py:26-36 | With qty > 0 and price > 0, one trade keeps every balance and every position non-negative. |
| `PaperTrading.RunKeepsSound` | backend/papertrading.py:21-47 | The same holds for any sequence of positive trades. |
| `PaperTrading.RunOnlyAppends` | backend/papertrading.py:39-46 | Over any sequence of trades, each user's earlier history is a prefix of the later one. |
| `PaperTrading.AcceptedTradeIsVisible` | backend/papertrading.py:39-61 | After an accepted trade, the history ends with the new record. Unless the new balance is itself at or over the reset threshold (1000000), the performance query reports exactly the trade's reply. |
| `PaperTrading.Backtest` | backend/papertrading.py:64-73 | An empty price list, and only that, gives "No price data". A first price of 0 gives ZeroDivisionError. profit = final - initial = shares * (last - first), with shares = floor(initial / first). profit is 0 when the first and last prices are equal. |
| `PaperTrading.BacktestDefault` | backend/papertrading.py:64-73 | Called without a balance, the backtest starts from 1000000: an empty list gives "No price data", and a report has initial balance 1000000 and final balance 1000000 plus the profit. |
| `PaperTrading.BacktestLeftoverCash` | backend/papertrading.py:67-68 | With a positive first price, the cash left after buying lies in [0, first price). |
| `PaperTrading.BacktestExample` | backend/papertrading.py:64-73 | 1000 at prices [100, 150] buys 10 shares and ends at 1500 with profit 500. |
| `MongoLedger.OfUser` | backend/paperTradeRoutes.js:185 | The filter keeps exactly the user's trades, each as often as stored. |
| `MongoLedger.SortNewestFirst` | backend/routes/tradingRoutes.js:111-113 | The result is a permutation of its input, ordered by non-increasing timestamp. |
| `MongoLedger.Insert` | backend/routes/tradingRoutes.js:112 | Inserting into a newest-first list keeps it newest-first and adds exactly one element. |
| `MongoLedger.History` | backend/paperTradeRoutes.js:181-191 | The history is exactly the user's trades, each as often as stored, newest first. Both Express ledgers run this same query. |
| `PaperTradeRoutes.PostTrade` | backend/paperTradeRoutes.js:88-178 | A missing field, qty <= 0 or price <= 0, or a side that is not buy or sell is rejected with its message and no write. Once validated, the Trade record is appended whatever follows. A buy is refused iff the balance is below qty*price; a sell is refused iff the held quantity is below qty. A validated request that is refused is answered "Insufficient funds" for a buy and "Insufficient shares" for a sell, and changes no portfolio. An accepted buy or sell moves the balance by qty*price and the position by qty, deleting the key when it reaches exactly 0. Only the user's portfolio changes, and it is created at 100000 when missing. |
| `PaperTradeRoutes.GetPerformance` | backend/paperTradeRoutes.js:194-222 | An unknown user gets balance 100000 and no positions, and that default is saved. A known user's portfolio is reported with no write. |
| `PaperTradeRoutes.PerformanceIdempotent` | backend/paperTradeRoutes.js:198-204 | A second query reports the same thing and writes nothing. |
| `PaperTradeRoutes.PostTradeKeepsHealthy` | backend/paperTradeRoutes.js:137-167 | For any request, a non-negative balance stays non-negative, and every stored position stays strictly positive because a zero position is deleted. |
| `PaperTradeRoutes.RefusedBuyStillInHistory` | backend/paperTradeRoutes.js:116-142 | A validated buy that the funds cannot cover is refused, but its Trade record shows up in the user's history. |
| `TradingRoutes.PostTrade` | backend/routes/tradingRoutes.js:22-105 | The reply is MissingFields iff a field is missing, and then nothing is written. A complete buy is accepted iff the balance covers qty*price, and a complete sell iff the held quantity (0 when absent) covers qty. A sell is refused only when the held quantity (0 when absent) is below qty, and a buy only when the balance is below qty*price. Each refusal carries its amounts and writes nothing. A 500 reply happens iff the side is neither buy nor sell; the portfolio is then saved but no Trade is. Only an accepted trade appends its record. An executed request saves only the user's portfolio: a buy debits and adds shares, and any other side credits and removes shares, keeping a zero key. |
| `TradingRoutes.GetPortfolio` | backend/routes/tradingRoutes.js:126-158 | An unknown user gets balance 100000 and no positions, and that portfolio is created. A known user's portfolio is returned with no write. |
| `TradingRoutes.GetPortfolioIdempotent` | backend/routes/tradingRoutes.js:130-134 | A second read returns the same portfolio and writes nothing. |
| `TradingRoutes.AddFunds` | backend/routes/tradingRoutes.js:161-196 | The request is rejected with no write iff the user is missing or the amount is <= 0. Otherwise the new balance is the old one (100000 for a new user) plus the amount, and only that balance changes. |
| `TradingRoutes.AddFundsAdditive` | backend/routes/tradingRoutes.js:174-181 | Two deposits leave the database as one deposit of their sum would. |
| `TradingRoutes.DepositCoversShortfall` | backend/routes/tradingRoutes.js:52-67 | After depositing exactly the shortfall of a refused buy, the same buy is accepted. |
| `TradingRoutes.PostTradeKeepsHealthy` | backend/routes/tradingRoutes.js:52-75 | With qty > 0, price > 0 and a side of buy or sell, balances and positions stay non-negative, and a position may stay at zero. |
| `TradingRoutes.SellAllKeepsZero` | backend/routes/tradingRoutes.js:68-75 | Selling every share is accepted and leaves the symbol stored with quantity 0. |
| `TradingRoutes.OtherSideSkipsShareCheck` | backend/routes/tradingRoutes.js:41-90 | A side of "hold" for 5 shares on an account holding 2 skips the share check and runs the sell branch. It saves a -3 position and a credited balance, records no Trade, and answers 500. |
| `TradingRoutes.NegativeBuyAccepted` | backend/routes/tradingRoutes.js:27-67 | Nothing rejects a negative quantity: a buy of -5 shares credits the balance and stores a -5 position. |
| `LedgerAgreement.ValidRequestsAgree` | backend/paperTradeRoutes.js:137-167 | On a request that passes the authenticated ledger's validation, both ledgers accept the same requests. An accepted trade leaves the same trades, balance, keys and other users in both. A buy leaves the same portfolio in both. After a sell, the positions differ only by the zero key the authenticated ledger deletes. |
| `LedgerAgreement.ZeroDropped` | backend/paperTradeRoutes.js:164-167 | A zero entry for the symbol is removed, and every other entry is kept with its value. |
| `LedgerAgreement.RefusalsDifferInHistory` | backend/paperTradeRoutes.js:116-156 | A refused validated trade adds one record to the authenticated ledger's trades, while the other ledger writes nothing. |
| `Watchlist.Add` | backend/watchlist.py:36-48 | A pair already present is reported as success with no write. A new pair is appended at the end and written. Both keep the list free of duplicate pairs. |
| `Watchlist.Without` | backend/watchlist.py:55-58 | Every entry of the pair is dropped, whatever its name, and every other entry is kept with its multiplicity. |
| `Watchlist.WithoutShorterIff` | backend/watchlist.py:55-60 | The filtered list is shorter iff the pair was present. |
| `Watchlist.Remove` | backend/watchlist.py:50-64 | Success, with the removal message, iff the pair was present, and the file is written only then. Afterwards the pair is absent and all other entries remain. A failure leaves the list unchanged with the not-found message. |
| `Watchlist.ListFor` | backend/watchlist.py:66-77 | The result is exactly the user's entries, each as often as stored. |
| `Watchlist.ListForDistributes` | backend/watchlist.py:71 | The user filter works entry by entry over concatenation, so the stored order is kept. |
| `Watchlist.Check` | backend/watchlist.py:79-88 | The scan finds the pair iff some entry matches it. |
| `Watchlist.WithoutDistributes` | backend/watchlist.py:55-58 | Removal works entry by entry over concatenation, so the kept entries stay in stored order. |
| `Watchlist.WithoutAbsent` | backend/watchlist.py:55-58 | Filtering out an absent pair returns the list unchanged. |
| `Watchlist.AddThenRemove` | backend/watchlist.py:36-64 | Adding a new pair and then removing it restores the list. |
| `Watchlist.CheckAfterUpdates` | backend/watchlist.py:36-88 | The pair is present after an add and absent after a remove, and remove ignores the entry name. |
| `Watchlist.RemoveKeepsKeyed` | backend/watchlist.py:50-64 | Remove keeps the list free of duplicate pairs. |
| `Watchlist.KeyedWithout` | backend/watchlist.py:55-58 | Filtering keeps the list free of duplicate pairs. |
| `AlertChecker.FirstPrice` | backend/checker.py:29-56 | The lookup fails iff every URL fails. Otherwise it returns the price of the first URL that yields one. |
| `AlertChecker.FetchPrice` | backend/checker.py:18-56 | The same over the three endpoints, in their fixed order. |
| `AlertChecker.ExtractPriority` | backend/checker.py:36-46 | Taking the fields in the order nested data.price, price, last_price, close, the price comes from the present field of least index, even when its value does not convert. With no field present there is no price. |
| `AlertChecker.FirstEndpointWins` | backend/checker.py:29-37 | A price from the first endpoint settles the lookup. |
| `AlertChecker.Lookups` | backend/checker.py:83-85 | Every record with a stock gets the price of its own `fetch_price` call, so two alerts on one stock make separate lookups within one sweep. A record without a stock is not looked up. |
| `AlertChecker.Fired` | backend/checker.py:84-91 | The selected alerts are exactly the triggered ones, each as often as in the input. Triggered means the stock, target and email are present, the alert's own lookup returned a price, and that price is at or above the target. |
| `AlertChecker.Kept` | backend/checker.py:84-96 | The selected alerts are exactly those not triggered, each as often as in the input. |
| `AlertChecker.FiredKeptSplit` | backend/checker.py:84-96 | Every alert is either emailed or kept, never both. |
| `AlertChecker.Notices` | backend/checker.py:86-91 | There is one email per triggered alert, in order, to the alert's address, with its stock and fetched price. |
| `AlertChecker.LoopAborts` | backend/checker.py:83-96 | The loop ends with an exception iff some record lacks `stock`: line 85 raises KeyError, and the handler's own `alert['stock']` at line 95 raises again outside the inner `try`. |
| `AlertChecker.LoopFinishes` | backend/checker.py:83-96 | A loop that runs to its end has appended exactly the untriggered alerts, in order, and emailed exactly the triggered ones, in order. |
| `AlertChecker.LoopStopsAt` | backend/checker.py:83-96 | A loop that fails has emailed exactly the triggered alerts before the first record lacking `stock`. |
| `AlertChecker.CheckAlerts` | backend/checker.py:78-102 | Without a record lacking `stock`, the store is rewritten with the untriggered alerts in order, one email goes to each triggered alert in order, and every alert is either emailed or stored. A record lacking `stock` makes lines 98-100 never run, so the store keeps every record. The emails already sent are those of the triggered alerts before that record. |
| `AlertChecker.FiredDistributes` | backend/checker.py:83-93 | The triggered alerts of a concatenation are those of each part, in order. |
| `AlertChecker.KeptDistributes` | backend/checker.py:83-96 | The untriggered alerts of a concatenation are those of each part, in order. |
| `AlertChecker.CheckAlertsDistributes` | backend/checker.py:82-100 | Without a record lacking `stock`, the sweep of a concatenation stores and emails what the sweeps of the parts do, in order. |
| `AlertChecker.StocklessCutsOff` | backend/checker.py:83-101 | A record lacking `stock` in the first part stops the loop there. No alert of the second part is emailed, and the store keeps every record. |
| `AlertChecker.SecondSweepIsQuiet` | backend/checker.py:83-100 | When every stored alert's next lookup returns the price it saw before, the next sweep keeps everything and sends nothing. |
| `AlertChecker.NoneTriggeredIsQuiet` | backend/checker.py:92-96 | A list with no triggered alert is stored whole and sends nothing, with or without a record lacking `stock`. |
| `AlertChecker.UntriggeredStays` | backend/checker.py:92-96 | An alert that is not triggered stays in the store. This covers a lookup that raised, a missing `target_price` or `email`, and a price below target. |
| `AlertChecker.SameStockMayDiffer` | backend/checker.py:83-96 | Two identical alerts on one stock can part ways in one sweep. The first sees 120 against a target of 100 and is emailed; the second's lookup raises and it is kept. |
| `AlertChecker.StocklessRecordAborts` | backend/checker.py:83-101 | A triggered alert followed by a record without `stock`: the email is sent, yet the store keeps both records, so the next sweep emails that alert again. |
| `PortfolioView.Step` | frontend/src/app/Portfolio/page.tsx:184-191 | One fold step keeps the average and quantity maps on the same symbols, with non-negative quantities. |
| `PortfolioView.Blend` | frontend/src/app/Portfolio/page.tsx:189 | The blended average times the combined quantity is the old cost plus the new cost. |
| `PortfolioView.AverageCosts` | frontend/src/app/Portfolio/page.tsx:180-192 | The fold keeps the two maps on the same symbols, with non-negative quantities. |
| `PortfolioView.AverageTimesQuantityIsCost` | frontend/src/app/Portfolio/page.tsx:183-192 | After the fold, average times quantity of a symbol is the sum of price*qty over its buys. A symbol never bought has no entry and cost 0. |
| `PortfolioView.SellLeavesCosts` | frontend/src/app/Portfolio/page.tsx:184 | A trade whose side is not buy, appended to the history, changes neither the average nor the quantity map. |
| `PortfolioView.StepKeepsCost` | frontend/src/app/Portfolio/page.tsx:184-190 | One step adds exactly its own buy cost to average times quantity. |
| `PortfolioView.StepOtherTrade` | frontend/src/app/Portfolio/page.tsx:184 | A sell, or a buy of another symbol, leaves a symbol's average times quantity unchanged. |
| `PortfolioView.StepOwnBuy` | frontend/src/app/Portfolio/page.tsx:185-190 | A buy of the symbol adds its price*qty, whether or not the average restarts. |
| `PortfolioView.QuantityIsTotalBought` | frontend/src/app/Portfolio/page.tsx:184-190 | With positive buy prices the average never restarts: the quantity is the sum of bought quantities and the average is positive. |
| `PortfolioView.FreeBuyRestartsQuantity` | frontend/src/app/Portfolio/page.tsx:185-190 | A buy at price 0 leaves an average of 0, which the next buy reads as "no average", so its quantity is dropped from the total. |
| `PortfolioView.MakeHolding` | frontend/src/app/Portfolio/page.tsx:196-213 | With no non-zero average, the average price is 0.95 times the current price. invested = qty*avg, value = qty*current and profit = value - invested. The percentage is 0 unless invested > 0. |
| `PortfolioView.Holdings` | frontend/src/app/Portfolio/page.tsx:194-221 | There is one holding per position with a quantity > 0, in order. Each holding is consistent and priced by the oracle (0 when it yields nothing). Its average price is the fold's non-zero average, or else 0.95 times the current price. |
| `PortfolioView.Summarize` | frontend/src/app/Portfolio/page.tsx:215-224 | The totals are the sums over holdings, and total profit = value - invested. The percentage is 0 unless invested > 0. |
| `PortfolioView.TotalProfitIsSumOfProfits` | frontend/src/app/Portfolio/page.tsx:201-223 | The summary's total profit equals the sum of the holdings' profits. |
| `PortfolioView.PortfolioPage` | frontend/src/app/Portfolio/page.tsx:180-224 | The page computation gives one holding per held position and a total profit equal to the sum of profits. |
| `HoldPeriod.CountBelow` | frontend/src/app/HoldStock/page.tsx:23-29 | The count is the index of the first limit covering the day count, or the number of limits when none does. |
| `HoldPeriod.PeriodFromDays` | frontend/src/app/HoldStock/page.tsx:22-30 | The result is one of the seven labels. It is "1m" iff days <= 30, and "max" iff days > 3650. |
| `HoldPeriod.PeriodIsBucket` | frontend/src/app/HoldStock/page.tsx:22-30 | The label is the one at the index of the first limit in [30, 180, 365, 1095, 1825, 3650] that covers the day count. |
| `HoldPeriod.CountBelowMonotone` | frontend/src/app/HoldStock/page.tsx:23-29 | More days never give a smaller index. |
| `HoldPeriod.PeriodMonotone` | frontend/src/app/HoldStock/page.tsx:23-29 | If d1 <= d2, the label of d1 is never later in the list than the label of d2. |
| `HoldPeriod.Boundaries` | frontend/src/app/HoldStock/page.tsx:24-29 | Each limit belongs to the shorter label, and one more day moves to the next: 30/31, 180/181, 365/366, 1095/1096, 1825/1826, 3650/3651. |

## Left out

- Persistence I/O is not modelled:
  - `load_data`/`save_data`;
  - the watchlist and alert JSON files, including `load_watchlist` returning `[]` on a decode error;
  - Mongo `findOne`/`save`/`find`.

  A store is passed in and the store that would be written is returned. Store corruption and database failures, which are the other 500 replies, are not modelled.
- Concurrent requests and their lost updates are not modelled. Each operation is one atomic step.
- Floating point is not modelled: money and JavaScript quantities are exact reals. Python's float `//` is the floor of the exact quotient. NaN and Infinity are not modelled. In particular, the hold-period mapping returns "max" when `parseInt` yields NaN, and the model takes an integer day count.
- Timestamps are the `now` parameter, and the portfolio's `last_updated` date is not modelled. Mongo's order for trades with equal timestamps is not fixed: the model states only newest-first plus the exact multiset of trades.
- HTTP routing, authentication (the JWT middleware), response shapes beyond status and payload, and log output are not modelled.
- `PaperTrading.PlaceTrade`: a stored account that lacks its `trades` or `positions` key makes the source raise KeyError. The model's Account always has both.
- `TradingRoutes.PostTrade`: the sell branch reads the position without a `|| 0` default. An absent symbol therefore yields NaN in the source, and the model uses 0. Mongoose's Number cast refuses NaN, so in the source `portfolio.save()` at tradingRoutes.js:78 rejects, the route answers 500 and nothing is written. The model differs there. A "sell" of an unheld symbol with a quantity <= 0 passes the share check and is answered Ok: its balance change, its position of -qty and its Trade are stored. Any other side on an unheld symbol saves the portfolio with a position of -qty and answers 500. This reading of the Mongoose cast comes from its documented behaviour; nothing was executed. The side is kept as a string rather than a buy/sell enum, so that the "other side runs as a sell" gap and the Trade schema's refusal of that side are visible.
- `PortfolioView.Step` requires a buy's quantity to be positive and keeps every total non-negative. The source also folds a negative-quantity buy to finite values (a buy of -5 at 10 gives average 10 and total -5), and such trades can be recorded (see `TradingRoutes.NegativeBuyAccepted`). A zero-quantity buy of a symbol with a non-zero running average leaves that average unchanged, since line 189 computes `(a*q + p*0)/(q + 0)` with `q > 0`. A zero-quantity buy with no running average computes 0/0, which is NaN. A negative quantity that cancels the running total divides a non-zero cost by zero, giving Infinity. The model covers none of these histories.
- `PortfolioView.AverageCosts` requires every buy quantity in the history to be positive, for the same reason as `Step`.
- `PortfolioView.PortfolioPage` requires every buy quantity in the history to be positive, for the same reason as `Step`.
- `AlertChecker.CheckAlerts` takes each alert's lookup result as input, and `Lookups` builds those results from one response oracle per `fetch_price` call. Failing to open or parse alert_store.json, and the handler at checker.py:101 that catches it, are not modelled. A `target_price` that is not a number is not modelled. `send_email` swallows its own errors, so every email attempt counts as sent. The scheduler loop is not modelled.
- `AlertChecker.FetchPrice`: `"price" in data["data"]` on a non-dict `data` (a string, say) is not modelled; the nested field is either present or absent.
- `MongoLedger.History`: the authenticated ledger's record keys the user as `user_id` and the other ledger's as `userId`. The model uses one `user` field for both.
- `papertrading.py` has no add-funds, import or CSV export operation. `add-funds` exists only in the Express ledger and is modelled there.

=== FILE: alert_checker.dfy ===
/** The price-alert sweep and its price lookup.

    The network is an oracle: `get` maps a URL to the response that
    endpoint gives (or `Failed` for an HTTP or transport error). The sweep
    calls `fetch_price` afresh for every alert, so each alert is paired
    with the price its own call returned, `None` standing for the exception
    it raises. `send_email` swallows its own errors, so every email attempt
    is recorded as sent. */
module AlertChecker {
  import opened Wrappers

  /** A record of alert_store.json; a key the record lacks is `None`. */
  datatype Alert = Alert(stock: Option<string>, targetPrice: Option<real>, email: Option<string>)

  /** An alert together with what its own `fetch_price` call returned. */
  datatype Checked = Checked(alert: Alert, price: Option<real>)

  /** One notification: recipient, and the stock and price its subject and
      body are built from. */
  datatype Email = Email(to: string, stock: string, price: real)

  /** What a sweep leaves in alert_store.json, and the emails it sent. */
  datatype Sweep = Sweep(stored: seq<Alert>, sent: seq<Email>)

  // ---------------------------------------------------------------------
  // fetch_price

  /** A JSON field: absent, or present with the value `float()` gives it
      (`None` when the conversion raises). */
  datatype Field = Absent | Present(parsed: Option<real>)

  /** `nested` is `data["data"]["price"]`, absent when either key is. */
  datatype Response = Failed | Json(nested: Field, price: Field, lastPrice: Field, close: Field)

  function Endpoints(stock: string): seq<string>
  {
    ["https://stock.indianapi.in/stock/" + stock,
     "https://stock.indianapi.in/" + stock,
     "https://api.stock.indianapi.in/" + stock]
  }

  /** The price one response yields: the first present field in the order
      nested price, price, last_price, close; `None` when none is present,
      when that field does not convert, or when the request failed. */
  function Extract(resp: Response): Option<real>
  {
    match resp
    case Failed => None
    case Json(nested, price, lastPrice, close) =>
      if nested.Present? then nested.parsed
      else if price.Present? then price.parsed
      else if lastPrice.Present? then lastPrice.parsed
      else if close.Present? then close.parsed
      else None
  }

  /** Tries the URLs in order and returns the first price obtained. */
  function FirstPrice(urls: seq<string>, get: string -> Response): (r: Option<real>)
    ensures r.None? <==> forall i :: 0 <= i < |urls| ==> Extract(get(urls[i])).None?
    ensures r.Some? ==> exists i :: 0 <= i < |urls| && Extract(get(urls[i])) == r
                                    && forall j :: 0 <= j < i ==> Extract(get(urls[j])).None?
  {
    if |urls| == 0 then None
    else
      match Extract(get(urls[0]))
      case Some(p) => Some(p)
      case None =>
        var r := FirstPrice(urls[1..], get);
        assert forall i :: 0 < i < |urls| ==> urls[i] == urls[1..][i - 1];
        if r.Some? then
          var i :| 0 <= i < |urls[1..]| && Extract(get(urls[1..][i])) == r
                   && forall j :: 0 <= j < i ==> Extract(get(urls[1..][j])).None?;
          assert Extract(get(urls[i + 1])) == r;
          r
        else r
  }

  /** `fetch_price`: `None` is the exception raised once every endpoint failed. */
  function FetchPrice(stock: string, get: string -> Response): (r: Option<real>)
    ensures r.None? <==> forall i :: 0 <= i < 3 ==> Extract(get(Endpoints(stock)[i])).None?
    ensures r.Some? ==> exists i :: 0 <= i < 3 && Extract(get(Endpoints(stock)[i])) == r
                                    && forall j :: 0 <= j < i ==> Extract(get(Endpoints(stock)[j])).None?
  {
    FirstPrice(Endpoints(stock), get)
  }

  /** The fields of a JSON response in the order the lookup consults them. */
  function Fields(resp: Response): (r: seq<Field>)
    requires resp.Json?
  {
    [resp.nested, resp.price, resp.lastPrice, resp.close]
  }

  /** The field priority: the price comes from the present field of least
      index, even when its value does not convert, and there is none when
      no field is present. */
  lemma ExtractPriority(resp: Response)
    requires resp.Json?
    ensures (forall i :: 0 <= i < 4 ==> Fields(resp)[i].Absent?) ==> Extract(resp) == None
    ensures forall i :: 0 <= i < 4 && Fields(resp)[i].Present? && (forall j :: 0 <= j < i ==> Fields(resp)[j].Absent?)
                        ==> Extract(resp) == Fields(resp)[i].parsed
  {
    var fs := Fields(resp);
    forall i | 0 <= i < 4 && fs[i].Present? && (forall j :: 0 <= j < i ==> fs[j].Absent?)
      ensures Extract(resp) == fs[i].parsed
    {
      if i > 0 { assert fs[0].Absent?; }
      if i > 1 { assert fs[1].Absent?; }
      if i > 2 { assert fs[2].Absent?; }
    }
    if forall i :: 0 <= i < 4 ==> fs[i].Absent? {
      assert fs[0].Absent? && fs[1].Absent? && fs[2].Absent? && fs[3].Absent?;
    }
  }

  /** A first endpoint that answers with a price settles the lookup. */
  lemma FirstEndpointWins(stock: string, get: string -> Response, p: real)
    requires Extract(get(Endpoints(stock)[0])) == Some(p)
    ensures FetchPrice(stock, get) == Some(p)
  {
  }

  // ---------------------------------------------------------------------
  // check_alerts

  /** The lookups of one sweep: every record with a stock is priced by its
      own `fetch_price` call, whose responses `gets[i]` gives, so two alerts
      on one stock may see different prices; a record without a stock is
      never looked up. */
  function Lookups(alerts: seq<Alert>, gets: seq<string -> Response>): (r: seq<Checked>)
    requires |gets| == |alerts|
    ensures |r| == |alerts|
    ensures forall i :: 0 <= i < |r| ==> r[i].alert == alerts[i]
    ensures forall i :: 0 <= i < |r| && alerts[i].stock.Some? ==> r[i].price == FetchPrice(alerts[i].stock.value, gets[i])
  {
    if |alerts| == 0 then []
    else
      var price := if alerts[0].stock.Some? then FetchPrice(alerts[0].stock.value, gets[0]) else None;
      [Checked(alerts[0], price)] + Lookups(alerts[1..], gets[1..])
  }

  /** The alert is emailed and dropped: its price was fetched, it has a
      target and an address, and the price reached the target. A missing
      `target_price` or `email` raises KeyError inside the per-alert handler,
      which keeps the alert. */
  predicate Triggered(c: Checked)
  {
    && c.alert.stock.Some? && c.alert.targetPrice.Some? && c.alert.email.Some?
    && c.price.Some? && c.price.value >= c.alert.targetPrice.value
  }

  function Notice(c: Checked): Email
    requires Triggered(c)
  {
    Email(c.alert.email.value, c.alert.stock.value, c.price.value)
  }

  /** Some record lacks `stock`. The per-alert handler reads that key again
      to log the error, so the KeyError escapes the loop and the store is
      never rewritten. */
  predicate Stockless(checks: seq<Checked>)
  {
    exists i :: 0 <= i < |checks| && checks[i].alert.stock.None?
  }

  /** `k` is the first record without a stock. */
  predicate FirstStockless(checks: seq<Checked>, k: int)
  {
    && 0 <= k < |checks| && checks[k].alert.stock.None?
    && forall j :: 0 <= j < k ==> checks[j].alert.stock.Some?
  }

  function Alerts(checks: seq<Checked>): (r: seq<Alert>)
    ensures |r| == |checks|
    ensures forall i :: 0 <= i < |r| ==> r[i] == checks[i].alert
  {
    if |checks| == 0 then [] else [checks[0].alert] + Alerts(checks[1..])
  }

  /** The triggered alerts, in input order. */
  function Fired(checks: seq<Checked>): (r: seq<Checked>)
    ensures forall i :: 0 <= i < |r| ==> Triggered(r[i])
    ensures forall c :: multiset(r)[c] == if Triggered(c) then multiset(checks)[c] else 0
  {
    if |checks| == 0 then []
    else
      assert checks == [checks[0]] + checks[1..];
      if Triggered(checks[0]) then [checks[0]] + Fired(checks[1..])
      else Fired(checks[1..])
  }

  /** The alerts not triggered, in input order. */
  function Kept(checks: seq<Checked>): (r: seq<Checked>)
    ensures forall i :: 0 <= i < |r| ==> !Triggered(r[i])
    ensures forall c :: multiset(r)[c] == if Triggered(c) then 0 else multiset(checks)[c]
  {
    if |checks| == 0 then []
    else
      assert checks == [checks[0]] + checks[1..];
      if Triggered(checks[0]) then Kept(checks[1..])
      else [checks[0]] + Kept(checks[1..])
  }

  /** Every alert is either emailed or kept, never both. */
  lemma FiredKeptSplit(checks: seq<Checked>)
    ensures multiset(Fired(checks)) + multiset(Kept(checks)) == multiset(checks)
    ensures |Fired(checks)| + |Kept(checks)| == |checks|
  {
  }

  /** One email per triggered alert, in order. */
  function Notices(fired: seq<Checked>): (r: seq<Email>)
    requires forall i :: 0 <= i < |fired| ==> Triggered(fired[i])
    ensures |r| == |fired|
    ensures forall i :: 0 <= i < |r| ==> r[i] == Notice(fired[i])
  {
    if |fired| == 0 then [] else [Notice(fired[0])] + Notices(fired[1..])
  }

  /** The state of the `for` loop when it ends: the alerts appended to
      `remaining`, the emails sent, and whether an exception escaped. */
  datatype Pass = Pass(kept: seq<Alert>, sent: seq<Email>, aborted: bool)

  /** The loop of `check_alerts`: each alert in order is emailed or kept,
      until a record without a stock ends it. */
  function Loop(checks: seq<Checked>): Pass
  {
    if |checks| == 0 then Pass([], [], false)
    else if checks[0].alert.stock.None? then Pass([], [], true)
    else
      var c := checks[0];
      var rest := Loop(checks[1..]);
      if Triggered(c) then Pass(rest.kept, [Notice(c)] + rest.sent, rest.aborted)
      else Pass([c.alert] + rest.kept, rest.sent, rest.aborted)
  }

  lemma FiredCons(c: Checked, xs: seq<Checked>)
    ensures Fired([c] + xs) == if Triggered(c) then [c] + Fired(xs) else Fired(xs)
  {
    assert ([c] + xs)[1..] == xs;
  }

  lemma KeptCons(c: Checked, xs: seq<Checked>)
    ensures Kept([c] + xs) == if Triggered(c) then Kept(xs) else [c] + Kept(xs)
  {
    assert ([c] + xs)[1..] == xs;
  }

  lemma NoticesCons(c: Checked, xs: seq<Checked>)
    requires Triggered(c) && forall i :: 0 <= i < |xs| ==> Triggered(xs[i])
    ensures Notices([c] + xs) == [Notice(c)] + Notices(xs)
  {
    assert ([c] + xs)[1..] == xs;
  }

  lemma AlertsCons(c: Checked, xs: seq<Checked>)
    ensures Alerts([c] + xs) == [c.alert] + Alerts(xs)
  {
    assert ([c] + xs)[1..] == xs;
  }

  /** Past a first record that has a stock, the records lacking one are
      those of the tail. */
  lemma StocklessTail(checks: seq<Checked>)
    requires |checks| > 0 && checks[0].alert.stock.Some?
    ensures Stockless(checks) <==> Stockless(checks[1..])
    ensures forall k :: FirstStockless(checks, k) ==> k > 0 && FirstStockless(checks[1..], k - 1)
  {
    assert forall i :: 0 < i < |checks| ==> checks[i] == checks[1..][i - 1];
  }

  /** The loop fails exactly when a record lacks `stock`. */
  lemma {:induction false} LoopAborts(checks: seq<Checked>)
    ensures Loop(checks).aborted <==> Stockless(checks)
    decreases |checks|
  {
    if |checks| > 0 {
      if checks[0].alert.stock.None? {
        assert Stockless(checks);
      } else {
        LoopAborts(checks[1..]);
        StocklessTail(checks);
      }
    }
  }

  /** A loop that runs to its end keeps the alerts not triggered and emails
      the triggered ones. */
  lemma {:induction false} LoopFinishes(checks: seq<Checked>)
    ensures !Stockless(checks) ==>
              Loop(checks).kept == Alerts(Kept(checks)) && Loop(checks).sent == Notices(Fired(checks))
    decreases |checks|
  {
    if |checks| > 0 && !Stockless(checks) {
      var c := checks[0];
      var tail := checks[1..];
      assert checks == [c] + tail;
      assert c.alert.stock.Some?;
      StocklessTail(checks);
      LoopFinishes(tail);
      FiredCons(c, tail);
      KeptCons(c, tail);
      if Triggered(c) {
        NoticesCons(c, Fired(tail));
      } else {
        AlertsCons(c, Kept(tail));
      }
    }
  }

  /** A loop that fails has emailed the triggered alerts before the first
      record lacking `stock`. */
  lemma {:induction false} LoopStopsAt(checks: seq<Checked>)
    ensures forall k :: FirstStockless(checks, k) ==> Loop(checks).sent == Notices(Fired(checks[..k]))
    decreases |checks|
  {
    if |checks| > 0 && checks[0].alert.stock.None? {
      assert forall k :: FirstStockless(checks, k) ==> k == 0;
      assert checks[..0] == [];
    } else if |checks| > 0 {
      var c := checks[0];
      var tail := checks[1..];
      StocklessTail(checks);
      LoopStopsAt(tail);
      forall k | FirstStockless(checks, k)
        ensures Loop(checks).sent == Notices(Fired(checks[..k]))
      {
        assert checks[..k] == [c] + tail[..k - 1];
        FiredCons(c, tail[..k - 1]);
        if Triggered(c) {
          NoticesCons(c, Fired(tail[..k - 1]));
        }
      }
    }
  }

  /** `check_alerts`. Without a record lacking `stock`, the store is
      rewritten with the alerts not triggered, and one email goes to each
      triggered alert. Otherwise the store keeps every record, and only the
      triggered alerts before the first such record were emailed; they are
      emailed again by the next sweep. */
  function CheckAlerts(checks: seq<Checked>): (r: Sweep)
    ensures Stockless(checks) ==> r.stored == Alerts(checks)
    ensures !Stockless(checks) ==> r.stored == Alerts(Kept(checks)) && r.sent == Notices(Fired(checks))
    ensures !Stockless(checks) ==> |r.sent| + |r.stored| == |checks|
    ensures forall k :: FirstStockless(checks, k) ==> r.sent == Notices(Fired(checks[..k]))
  {
    var p := Loop(checks);
    LoopAborts(checks);
    LoopFinishes(checks);
    LoopStopsAt(checks);
    FiredKeptSplit(checks);
    Sweep(if p.aborted then Alerts(checks) else p.kept, p.sent)
  }

  /** A sweep with a record lacking `stock` has a first such record. */
  lemma {:induction false} FirstStocklessExists(checks: seq<Checked>)
    requires Stockless(checks)
    ensures exists k :: FirstStockless(checks, k)
    decreases |checks|
  {
    if checks[0].alert.stock.None? {
      assert FirstStockless(checks, 0);
    } else {
      var i :| 0 <= i < |checks| && checks[i].alert.stock.None?;
      assert checks[1..][i - 1] == checks[i];
      FirstStocklessExists(checks[1..]);
      var k :| FirstStockless(checks[1..], k);
      assert forall j :: 0 < j <= k ==> checks[j] == checks[1..][j - 1];
      assert FirstStockless(checks, k + 1);
    }
  }

  lemma {:induction false} FiredDistributes(a: seq<Checked>, b: seq<Checked>)
    ensures Fired(a + b) == Fired(a) + Fired(b)
    decreases |a|
  {
    if |a| == 0 {
      assert a + b == b;
    } else {
      assert (a + b)[1..] == a[1..] + b;
      FiredDistributes(a[1..], b);
      if Triggered(a[0]) {
        assert [a[0]] + (Fired(a[1..]) + Fired(b)) == ([a[0]] + Fired(a[1..])) + Fired(b);
      }
    }
  }

  lemma {:induction false} KeptDistributes(a: seq<Checked>, b: seq<Checked>)
    ensures Kept(a + b) == Kept(a) + Kept(b)
    decreases |a|
  {
    if |a| == 0 {
      assert a + b == b;
    } else {
      assert (a + b)[1..] == a[1..] + b;
      KeptDistributes(a[1..], b);
      if !Triggered(a[0]) {
        assert [a[0]] + (Kept(a[1..]) + Kept(b)) == ([a[0]] + Kept(a[1..])) + Kept(b);
      }
    }
  }

  lemma {:induction false} AlertsDistributes(a: seq<Checked>, b: seq<Checked>)
    ensures Alerts(a + b) == Alerts(a) + Alerts(b)
  {
    assert forall i :: 0 <= i < |a| ==> Alerts(a + b)[i] == (a + b)[i].alert == a[i].alert;
    assert forall i :: |a| <= i < |a| + |b| ==> Alerts(a + b)[i] == (a + b)[i].alert == b[i - |a|].alert;
  }

  lemma {:induction false} NoticesDistributes(a: seq<Checked>, b: seq<Checked>)
    requires forall i :: 0 <= i < |a| ==> Triggered(a[i])
    requires forall i :: 0 <= i < |b| ==> Triggered(b[i])
    ensures Notices(a + b) == Notices(a) + Notices(b)
  {
    assert forall i :: 0 <= i < |a| ==> Notices(a + b)[i] == Notice((a + b)[i]) == Notice(a[i]);
    assert forall i :: |a| <= i < |a| + |b| ==> Notices(a + b)[i] == Notice((a + b)[i]) == Notice(b[i - |a|]);
  }

  /** A concatenation has a record lacking `stock` iff one of its parts has. */
  lemma StocklessParts(a: seq<Checked>, b: seq<Checked>)
    ensures Stockless(a + b) <==> Stockless(a) || Stockless(b)
  {
    assert forall i :: 0 <= i < |a| ==> (a + b)[i] == a[i];
    assert forall i :: 0 <= i < |b| ==> (a + b)[|a| + i] == b[i];
    if Stockless(a + b) {
      var i :| 0 <= i < |a + b| && (a + b)[i].alert.stock.None?;
      if i >= |a| {
        assert b[i - |a|] == (a + b)[i];
      }
    }
  }

  /** The sweep treats alerts one by one. Without a record lacking `stock`
      it distributes over concatenation, so the stored alerts and the emails
      keep input order. */
  lemma CheckAlertsDistributes(a: seq<Checked>, b: seq<Checked>)
    ensures !Stockless(a + b) ==>
              CheckAlerts(a + b) == Sweep(CheckAlerts(a).stored + CheckAlerts(b).stored,
                                          CheckAlerts(a).sent + CheckAlerts(b).sent)
  {
    StocklessParts(a, b);
    if !Stockless(a + b) {
      FiredDistributes(a, b);
      KeptDistributes(a, b);
      AlertsDistributes(Kept(a), Kept(b));
      NoticesDistributes(Fired(a), Fired(b));
    }
  }

  /** A record lacking `stock` in the first part cuts the second part off:
      none of its alerts is emailed and the store is left as it was. */
  lemma StocklessCutsOff(a: seq<Checked>, b: seq<Checked>)
    ensures Stockless(a) ==> CheckAlerts(a + b) == Sweep(Alerts(a + b), CheckAlerts(a).sent)
  {
    if Stockless(a) {
      FirstStocklessExists(a);
      var k :| FirstStockless(a, k);
      assert forall i :: 0 <= i < |a| ==> (a + b)[i] == a[i];
      assert FirstStockless(a + b, k);
      assert (a + b)[..k] == a[..k];
    }
  }

  /** A list whose alerts are none of them triggered is kept whole and no
      email goes out. */
  lemma NoneTriggeredIsQuiet(checks: seq<Checked>)
    requires forall i :: 0 <= i < |checks| ==> !Triggered(checks[i])
    ensures CheckAlerts(checks) == Sweep(Alerts(checks), [])
  {
    NothingFires(checks);
    if Stockless(checks) {
      FirstStocklessExists(checks);
      var k :| FirstStockless(checks, k);
      NothingFires(checks[..k]);
    } else {
      KeptAll(checks);
    }
  }

  lemma NothingFires(checks: seq<Checked>)
    requires forall i :: 0 <= i < |checks| ==> !Triggered(checks[i])
    ensures Fired(checks) == []
  {
  }

  lemma {:induction false} KeptAll(checks: seq<Checked>)
    requires forall i :: 0 <= i < |checks| ==> !Triggered(checks[i])
    ensures Kept(checks) == checks
    decreases |checks|
  {
    if |checks| > 0 {
      KeptAll(checks[1..]);
      assert checks == [checks[0]] + checks[1..];
    }
  }

  /** When every kept alert sees again the price it saw, the next sweep
      keeps everything and sends nothing. */
  lemma SecondSweepIsQuiet(checks: seq<Checked>)
    ensures !Stockless(checks) ==> CheckAlerts(Kept(checks)) == Sweep(CheckAlerts(checks).stored, [])
  {
    var kept := Kept(checks);
    NoneTriggeredIsQuiet(kept);
    if !Stockless(checks) {
      forall i | 0 <= i < |kept|
        ensures kept[i].alert.stock.Some?
      {
        assert multiset(kept)[kept[i]] > 0;
        assert kept[i] in checks;
      }
    }
  }

  /** An alert that is not triggered, whether its lookup raised, a key is
      missing or the price is below target, stays in the store. */
  lemma UntriggeredStays(checks: seq<Checked>, i: int)
    requires 0 <= i < |checks| && !Triggered(checks[i])
    ensures checks[i].alert in CheckAlerts(checks).stored
  {
    if !Stockless(checks) {
      var kept := Kept(checks);
      assert multiset(kept)[checks[i]] > 0;
      var j :| 0 <= j < |kept| && kept[j] == checks[i];
      assert Alerts(kept)[j] == checks[i].alert;
    } else {
      assert Alerts(checks)[i] == checks[i].alert;
    }
  }

  /** Two alerts on one stock get separate lookups: the first sees a price
      at its target and is emailed, the second's lookup raises and it is
      kept. */
  lemma SameStockMayDiffer()
    ensures var a := Alert(Some("ACME"), Some(100.0), Some("a@example.com"));
            CheckAlerts([Checked(a, Some(120.0)), Checked(a, None)])
            == Sweep([a], [Email("a@example.com", "ACME", 120.0)])
  {
    var a := Alert(Some("ACME"), Some(100.0), Some("a@example.com"));
    var checks := [Checked(a, Some(120.0)), Checked(a, None)];
    assert !Stockless(checks);
    assert checks[1..][1..] == [];
    assert Kept(checks) == [checks[1]];
    assert Fired(checks) == [checks[0]];
  }

  /** A record without `stock` after a triggered alert: the email goes out,
      yet the store keeps both records, so the next sweep emails again. */
  lemma StocklessRecordAborts()
    ensures var a := Alert(Some("ACME"), Some(100.0), Some("a@example.com"));
            var b := Alert(None, Some(1.0), Some("b@example.com"));
            CheckAlerts([Checked(a, Some(120.0)), Checked(b, None)])
            == Sweep([a, b], [Email("a@example.com", "ACME", 120.0)])
  {
    var a := Alert(Some("ACME"), Some(100.0), Some("a@example.com"));
    var b := Alert(None, Some(1.0), Some("b@example.com"));
    var checks := [Checked(a, Some(120.0)), Checked(b, None)];
    assert FirstStockless(checks, 1);
    assert checks[..1] == [checks[0]];
    assert Fired(checks[..1]) == [checks[0]];
  }
}

=== FILE: hold_period.dfy ===
/** The holding-period bucket the hold-stock form sends: a number of days
    (the form field parsed as an integer) mapped to the coarsest period
    label that still covers it. */
module HoldPeriod {

  /** The labels, shortest period first. */
  const Periods: seq<string> := ["1m", "6m", "1yr", "3yr", "5yr", "10yr", "max"]

  /** The inclusive upper bound, in days, of every label but the last. */
  const Limits: seq<int> := [30, 180, 365, 3 * 365, 5 * 365, 10 * 365]

  /** How many leading limits lie strictly below `days`: the index of the
      first limit that covers `days`, or `|limits|` when none does. */
  function CountBelow(limits: seq<int>, days: int): (r: nat)
    ensures r <= |limits|
    ensures r < |limits| ==> days <= limits[r]
    ensures forall i :: 0 <= i < r ==> days > limits[i]
  {
    if |limits| == 0 || days <= limits[0] then 0
    else 1 + CountBelow(limits[1..], days)
  }

  /** The period for `days`: the label at the index of the first limit that
      covers it, "max" past the last limit. */
  function PeriodFromDays(days: int): (r: string)
    ensures r in Periods
    ensures r == "1m" <==> days <= 30
    ensures r == "max" <==> days > 3650
  {
    if days <= 30 then "1m"
    else if days <= 180 then "6m"
    else if days <= 365 then "1yr"
    else if days <= 3 * 365 then "3yr"
    else if days <= 5 * 365 then "5yr"
    else if days <= 10 * 365 then "10yr"
    else "max"
  }

  /** The first covering limit is the only index with both properties of
      `CountBelow`'s contract. */
  lemma CountBelowIs(limits: seq<int>, days: int, k: nat)
    requires k <= |limits|
    requires forall i :: 0 <= i < k ==> days > limits[i]
    requires k < |limits| ==> days <= limits[k]
    ensures CountBelow(limits, days) == k
  {
  }

  /** The chain of comparisons picks the label of the first covering limit. */
  lemma PeriodIsBucket(days: int)
    ensures PeriodFromDays(days) == Periods[CountBelow(Limits, days)]
  {
    var k := if days <= 30 then 0 else if days <= 180 then 1 else if days <= 365 then 2
             else if days <= 1095 then 3 else if days <= 1825 then 4 else if days <= 3650 then 5 else 6;
    CountBelowIs(Limits, days, k);
  }

  /** More days never give a shorter period. */
  lemma {:induction false} CountBelowMonotone(limits: seq<int>, d1: int, d2: int)
    requires d1 <= d2
    ensures CountBelow(limits, d1) <= CountBelow(limits, d2)
    decreases |limits|
  {
    if |limits| > 0 && d1 > limits[0] {
      CountBelowMonotone(limits[1..], d1, d2);
    }
  }

  /** The label order follows the day order. */
  lemma PeriodMonotone(d1: int, d2: int)
    requires d1 <= d2
    ensures exists i, j :: 0 <= i <= j < |Periods| && PeriodFromDays(d1) == Periods[i] && PeriodFromDays(d2) == Periods[j]
  {
    CountBelowMonotone(Limits, d1, d2);
    PeriodIsBucket(d1);
    PeriodIsBucket(d2);
    var i := CountBelow(Limits, d1);
    var j := CountBelow(Limits, d2);
    assert PeriodFromDays(d1) == Periods[i] && PeriodFromDays(d2) == Periods[j];
  }

  /** Each limit belongs to its own, shorter label; one more day moves on. */
  lemma Boundaries()
    ensures PeriodFromDays(30) == "1m" && PeriodFromDays(31) == "6m"
    ensures PeriodFromDays(180) == "6m" && PeriodFromDays(181) == "1yr"
    ensures PeriodFromDays(365) == "1yr" && PeriodFromDays(366) == "3yr"
    ensures PeriodFromDays(1095) == "3yr" && PeriodFromDays(1096) == "5yr"
    ensures PeriodFromDays(1825) == "5yr" && PeriodFromDays(1826) == "10yr"
    ensures PeriodFromDays(3650) == "10yr" && PeriodFromDays(3651) == "max"
  {
  }
}

=== FILE: ledger_agreement.dfy ===
/** The two Express ledgers side by side. On a request that passes the
    stricter validation of `/api/paper-trade/trade` they accept and refuse
    alike and leave the same balance; they differ only in a refused trade's
    record and in the zero-quantity key a full sell leaves behind. */
module LedgerAgreement {
  import opened MongoLedger
  import PaperTradeRoutes
  import TradingRoutes

  /** For a validated request both ledgers take the same decision; an
      accepted trade leaves the same balance and the same trade list; a buy
      leaves the same portfolio, and after a sell the positions differ only
      by a key whose quantity is zero. */
  lemma ValidRequestsAgree(db: Db, req: TradeRequest, now: int)
    requires PaperTradeRoutes.Invalid(req).None?
    ensures var paper := PaperTradeRoutes.PostTrade(db, req, now);
            var plain := TradingRoutes.PostTrade(db, req, now);
            && (paper.status.Ok? <==> plain.status.Ok?)
            && (paper.status.Ok? ==>
                  && paper.db.trades == plain.db.trades
                  && paper.db.portfolios.Keys == plain.db.portfolios.Keys
                  && paper.db.portfolios[req.user].balance == plain.db.portfolios[req.user].balance
                  && (forall u :: u in paper.db.portfolios && u != req.user ==>
                        paper.db.portfolios[u] == plain.db.portfolios[u])
                  && (req.side == "buy" ==>
                        paper.db.portfolios[req.user] == plain.db.portfolios[req.user])
                  && (req.side == "sell" ==>
                        paper.db.portfolios[req.user].positions
                        == ZeroDropped(plain.db.portfolios[req.user].positions, req.symbol)))
  {
  }

  /** The positions without `symbol` when its quantity is exactly zero. */
  function ZeroDropped(positions: map<string, real>, symbol: string): (r: map<string, real>)
    ensures symbol in positions && positions[symbol] == 0.0 ==> symbol !in r && r.Keys == positions.Keys - {symbol}
    ensures !(symbol in positions && positions[symbol] == 0.0) ==> r == positions
    ensures forall s :: s in r ==> s in positions && r[s] == positions[s]
  {
    if symbol in positions && positions[symbol] == 0.0 then positions - {symbol} else positions
  }

  /** A refused validated trade: the authenticated ledger keeps its record,
      the other writes nothing. */
  lemma RefusalsDifferInHistory(db: Db, req: TradeRequest, now: int)
    requires PaperTradeRoutes.Invalid(req).None?
    requires !PaperTradeRoutes.PostTrade(db, req, now).status.Ok?
    ensures |PaperTradeRoutes.PostTrade(db, req, now).db.trades| == |db.trades| + 1
    ensures TradingRoutes.PostTrade(db, req, now).db == db
  {
  }
}

=== FILE: mongo_ledger.dfy ===
/** What the two Express ledgers share: the shape of their two Mongo
    collections, the request body of `POST /trade`, the portfolio a route
    loads or creates, and the newest-first trade history of `GET /history`.

    The collections are held in memory: `Portfolio.findOne` is a map lookup,
    `save` a map update, `Trade.save` an append. A timestamp is the number
    of milliseconds `Date.now` would give; JavaScript numbers are `real`. */
module MongoLedger {
  import opened Wrappers

  /** Balance of a portfolio created on first use. */
  const DefaultBalance: real := 100000.0

  datatype Trade = Trade(user: string, symbol: string, qty: real, price: real, side: string, timestamp: int)

  datatype Portfolio = Portfolio(balance: real, positions: map<string, real>)

  /** The `Portfolio` collection keyed by user id, and the `Trade`
      collection in insertion order. */
  datatype Db = Db(portfolios: map<string, Portfolio>, trades: seq<Trade>)

  /** The body of `POST /trade`; a missing field is its falsy value. */
  datatype TradeRequest = TradeRequest(user: string, symbol: string, qty: real, price: real, side: string)

  const NewPortfolio := Portfolio(DefaultBalance, map[])

  /** The portfolio `findOne` returns, or the unsaved default one. */
  function Current(db: Db, user: string): Portfolio
  {
    if user in db.portfolios then db.portfolios[user] else NewPortfolio
  }

  /** Shares of `symbol` held, with an absent key read as 0. */
  function Held(p: Portfolio, symbol: string): real
  {
    GetOr(p.positions, symbol, 0.0)
  }

  /** `!user_id || !symbol || !qty || !price || !side` */
  predicate MissingField(req: TradeRequest)
  {
    req.user == "" || req.symbol == "" || req.qty == 0.0 || req.price == 0.0 || req.side == ""
  }

  function TradeValue(req: TradeRequest): real
  {
    req.qty * req.price
  }

  // ---------------------------------------------------------------------
  // GET /history: `Trade.find({user}).sort({timestamp: -1})`

  ghost predicate NewestFirst(ts: seq<Trade>)
  {
    forall i, j :: 0 <= i < j < |ts| ==> ts[i].timestamp >= ts[j].timestamp
  }

  /** The trades of one user, in stored order. */
  function OfUser(ts: seq<Trade>, user: string): (r: seq<Trade>)
    ensures forall t :: multiset(r)[t] == if t.user == user then multiset(ts)[t] else 0
  {
    if |ts| == 0 then []
    else
      var rest := OfUser(ts[1..], user);
      assert ts == [ts[0]] + ts[1..];
      if ts[0].user == user then [ts[0]] + rest else rest
  }

  /** Places `t` in front of the first trade that is not newer than it. */
  function Insert(t: Trade, sorted: seq<Trade>): (r: seq<Trade>)
    requires NewestFirst(sorted)
    ensures NewestFirst(r)
    ensures multiset(r) == multiset(sorted) + multiset{t}
    ensures r[0] == t || r[0] == sorted[0]
  {
    if |sorted| == 0 || t.timestamp >= sorted[0].timestamp then [t] + sorted
    else
      var rest := Insert(t, sorted[1..]);
      assert sorted == [sorted[0]] + sorted[1..];
      assert rest[0].timestamp <= sorted[0].timestamp;
      NewestFirstCons(sorted[0], rest);
      [sorted[0]] + rest
  }

  lemma NewestFirstCons(x: Trade, rest: seq<Trade>)
    requires NewestFirst(rest)
    requires |rest| > 0 ==> x.timestamp >= rest[0].timestamp
    ensures NewestFirst([x] + rest)
  {
    var r := [x] + rest;
    forall i, j | 0 <= i < j < |r| ensures r[i].timestamp >= r[j].timestamp {
      if i == 0 {
        assert r[j] == rest[j - 1];
      } else {
        assert r[i] == rest[i - 1] && r[j] == rest[j - 1];
      }
    }
  }

  /** A newest-first arrangement of `ts`; trades with equal timestamps come
      in an order the database does not fix either. */
  function SortNewestFirst(ts: seq<Trade>): (r: seq<Trade>)
    ensures NewestFirst(r)
    ensures multiset(r) == multiset(ts)
  {
    if |ts| == 0 then []
    else
      assert ts == [ts[0]] + ts[1..];
      Insert(ts[0], SortNewestFirst(ts[1..]))
  }

  /** `GET /history/:user`: exactly the user's trades, newest first. */
  function History(db: Db, user: string): (r: seq<Trade>)
    ensures NewestFirst(r)
    ensures forall t :: multiset(r)[t] == if t.user == user then multiset(db.trades)[t] else 0
  {
    SortNewestFirst(OfUser(db.trades, user))
  }
}

=== FILE: paper_trade_routes.dfy ===
/** The authenticated Express ledger (`/trade`, `/history`, `/performance`).

    Its distinguishing rules: requests are fully validated first, the Trade
    record is saved before the funds and shares checks (so a rejected trade
    still leaves a record), and a sell that empties a position deletes the
    symbol's key. */
module PaperTradeRoutes {
  import opened Wrappers
  import opened MongoLedger

  const MissingFields := "Missing required fields"
  const NotPositive := "Quantity and price must be positive numbers"
  const BadSide := "Side must be buy or sell"
  const InsufficientFunds := "Insufficient funds"
  const InsufficientShares := "Insufficient shares"

  /** `Ok` carries the saved Trade record; `BadRequest` is a 400 reply. */
  datatype Status = Ok(trade: Trade) | BadRequest(error: string)

  datatype Outcome = Outcome(status: Status, db: Db)

  datatype Performance = Performance(balance: real, positions: map<string, real>)

  /** The first validation failure of the request, if any. */
  function Invalid(req: TradeRequest): Option<string>
  {
    if MissingField(req) then Some(MissingFields)
    else if req.qty <= 0.0 || req.price <= 0.0 then Some(NotPositive)
    else if req.side != "buy" && req.side != "sell" then Some(BadSide)
    else None
  }

  /** `POST /trade` at time `now`. */
  function PostTrade(db: Db, req: TradeRequest, now: int): (r: Outcome)
    // validation rejects before anything is written
    ensures MissingField(req) ==> r == Outcome(BadRequest(MissingFields), db)
    ensures !MissingField(req) && (req.qty <= 0.0 || req.price <= 0.0)
            ==> r == Outcome(BadRequest(NotPositive), db)
    ensures !MissingField(req) && req.qty > 0.0 && req.price > 0.0 && req.side != "buy" && req.side != "sell"
            ==> r == Outcome(BadRequest(BadSide), db)
    // past validation the Trade record is saved whatever the checks decide
    ensures Invalid(req).None? ==>
              r.db.trades == db.trades + [Trade(req.user, req.symbol, req.qty, req.price, req.side, now)]
    ensures Invalid(req).None? && req.side == "buy" ==>
              (r.status.Ok? <==> Current(db, req.user).balance >= TradeValue(req))
    ensures Invalid(req).None? && req.side == "sell" ==>
              (r.status.Ok? <==> Held(Current(db, req.user), req.symbol) >= req.qty)
    // a validated request that is refused is refused for funds or shares
    // and changes no portfolio
    ensures Invalid(req).None? && !r.status.Ok? ==>
              && r.status == BadRequest(if req.side == "buy" then InsufficientFunds else InsufficientShares)
              && r.db.portfolios == db.portfolios
    ensures r.status.Ok? ==>
              var before := Current(db, req.user);
              var held := Held(before, req.symbol);
              && r.status.trade == Trade(req.user, req.symbol, req.qty, req.price, req.side, now)
              && r.db.portfolios.Keys == db.portfolios.Keys + {req.user}
              && (forall u :: u in db.portfolios && u != req.user ==> r.db.portfolios[u] == db.portfolios[u])
              && (req.side == "buy" ==>
                    r.db.portfolios[req.user]
                    == Portfolio(before.balance - TradeValue(req), before.positions[req.symbol := held + req.qty]))
              && (req.side == "sell" ==>
                    r.db.portfolios[req.user].balance == before.balance + TradeValue(req))
              && (req.side == "sell" && held - req.qty == 0.0 ==>
                    r.db.portfolios[req.user].positions == before.positions - {req.symbol})
              && (req.side == "sell" && held - req.qty != 0.0 ==>
                    r.db.portfolios[req.user].positions == before.positions[req.symbol := held - req.qty])
  {
    match Invalid(req)
    case Some(e) => Outcome(BadRequest(e), db)
    case None =>
      var trade := Trade(req.user, req.symbol, req.qty, req.price, req.side, now);
      var logged := db.(trades := db.trades + [trade]);
      var p := Current(db, req.user);
      var value := TradeValue(req);
      var held := Held(p, req.symbol);
      if req.side == "buy" then
        if p.balance < value then Outcome(BadRequest(InsufficientFunds), logged)
        else
          var p' := Portfolio(p.balance - value, p.positions[req.symbol := held + req.qty]);
          Outcome(Ok(trade), logged.(portfolios := db.portfolios[req.user := p']))
      else
        if held < req.qty then Outcome(BadRequest(InsufficientShares), logged)
        else
          var set' := p.positions[req.symbol := held - req.qty];
          var positions := if set'[req.symbol] == 0.0 then set' - {req.symbol} else set';
          var p' := Portfolio(p.balance + value, positions);
          Outcome(Ok(trade), logged.(portfolios := db.portfolios[req.user := p']))
  }

  /** `GET /performance/:user`: reports the portfolio and, for an unknown
      user, saves the default one first. */
  function GetPerformance(db: Db, user: string): (r: (Performance, Db))
    ensures user !in db.portfolios ==>
              r.0 == Performance(DefaultBalance, map[])
              && r.1 == db.(portfolios := db.portfolios[user := NewPortfolio])
    ensures user in db.portfolios ==>
              r.1 == db && r.0 == Performance(db.portfolios[user].balance, db.portfolios[user].positions)
  {
    if user in db.portfolios then
      var p := db.portfolios[user];
      (Performance(p.balance, p.positions), db)
    else (Performance(DefaultBalance, map[]), db.(portfolios := db.portfolios[user := NewPortfolio]))
  }

  /** Asking twice gives the same report, and the second call writes nothing. */
  lemma PerformanceIdempotent(db: Db, user: string)
    ensures var (p1, db1) := GetPerformance(db, user);
            var (p2, db2) := GetPerformance(db1, user);
            p2 == p1 && db2 == db1
  {
  }

  // ---------------------------------------------------------------------
  // Invariant: non-negative balance, strictly positive stored positions

  ghost predicate Healthy(p: Portfolio)
  {
    && p.balance >= 0.0
    && forall s :: s in p.positions ==> p.positions[s] > 0.0
  }

  ghost predicate HealthyDb(db: Db)
  {
    forall u :: u in db.portfolios ==> Healthy(db.portfolios[u])
  }

  /** Every request keeps the balance non-negative and, because a position
      that reaches zero is deleted, every stored position strictly positive. */
  lemma PostTradeKeepsHealthy(db: Db, req: TradeRequest, now: int)
    requires HealthyDb(db)
    ensures HealthyDb(PostTrade(db, req, now).db)
  {
    var r := PostTrade(db, req, now);
    if r.status.Ok? {
      var before := Current(db, req.user);
      assert Healthy(before) by {
        if req.user in db.portfolios { assert Healthy(db.portfolios[req.user]); }
      }
      var after := r.db.portfolios[req.user];
      assert Healthy(after) by {
        forall s | s in after.positions ensures after.positions[s] > 0.0 {
          if s != req.symbol { assert after.positions[s] == before.positions[s]; }
        }
      }
      forall u | u in r.db.portfolios ensures Healthy(r.db.portfolios[u]) {
        if u != req.user { assert r.db.portfolios[u] == db.portfolios[u]; }
      }
    }
  }

  /** A validated buy the funds cannot cover is refused, yet its Trade
      record stays in the history. */
  lemma RefusedBuyStillInHistory(db: Db, req: TradeRequest, now: int)
    requires Invalid(req).None? && req.side == "buy"
    requires Current(db, req.user).balance < TradeValue(req)
    ensures var r := PostTrade(db, req, now);
            && r.status == BadRequest(InsufficientFunds)
            && Trade(req.user, req.symbol, req.qty, req.price, req.side, now) in multiset(History(r.db, req.user))
  {
    var r := PostTrade(db, req, now);
    var t := Trade(req.user, req.symbol, req.qty, req.price, req.side, now);
    assert r.db.trades[|db.trades|] == t;
    assert t in multiset(r.db.trades);
  }
}

=== FILE: paper_trading.dfy ===
/** The JSON-file paper-trading ledger of the Python backend.

    The store is the whole JSON document, a map from user id to account.
    `load_data`/`save_data` are replaced by passing the store in and
    returning the store that would be written; an operation that does not
    reach `save_data` returns its input store unchanged. The wall clock
    (`datetime.utcnow()`) is the `now` parameter. */
module PaperTrading {
  import opened Wrappers

  /** Balance of an account created on first use, and the value a stale
      balance is reset to. */
  const DefaultBalance: real := 100000.0
  /** A stored balance at or above this value is treated as stale. */
  const ResetThreshold: real := 1000000.0
  /** Default starting balance of the buy-and-hold backtest. */
  const BacktestDefaultBalance: real := 1000000.0

  const InsufficientBalance := "Insufficient balance"
  const NotEnoughShares := "Not enough shares"
  const InvalidSide := "Invalid side"

  datatype Trade = Trade(symbol: string, qty: int, price: real, side: string, timestamp: string)

  /** One user's stored record; `balance` is `None` when the key is absent
      from the stored JSON object. */
  datatype Account = Account(balance: Option<real>, trades: seq<Trade>, positions: map<string, int>)

  type Store = map<string, Account>

  datatype TradeReply =
    | Accepted(balance: real, positions: map<string, int>)
    | Rejected(error: string)
      /** the `KeyError` of `positions[symbol] -= qty` on a symbol never held */
    | Raised

  datatype TradeOutcome = TradeOutcome(reply: TradeReply, store: Store)

  datatype Performance = Performance(balance: real, positions: map<string, int>)

  datatype BacktestReport =
    | Report(initialBalance: real, finalBalance: real, profit: real)
    | NoPriceData
      /** Python's `ZeroDivisionError` when the first price is 0 */
    | ZeroDivision

  /** The account `place_trade` works on: the stored one, or a fresh default
      one (`setdefault`), with a missing or stale balance reset. */
  function Working(store: Store, user: string): (a: Account)
    ensures a.balance.Some?
  {
    var stored := if user in store then store[user] else Account(Some(DefaultBalance), [], map[]);
    match stored.balance
    case Some(b) => if b < ResetThreshold then stored else stored.(balance := Some(DefaultBalance))
    case None => stored.(balance := Some(DefaultBalance))
  }

  /** `get_performance`: read-only; an unknown user reports the default. */
  function GetPerformance(store: Store, user: string): (r: Performance)
    ensures user !in store ==> r == Performance(DefaultBalance, map[])
    ensures user in store ==> r.positions == store[user].positions
    ensures user in store && store[user].balance.Some? && store[user].balance.value < ResetThreshold
            ==> r.balance == store[user].balance.value
    ensures user in store && (store[user].balance.None? || store[user].balance.value >= ResetThreshold)
            ==> r.balance == DefaultBalance
  {
    var a := Working(store, user);
    Performance(a.balance.value, a.positions)
  }

  /** `get_trading_history`: read-only; an unknown user has no trades. */
  function GetHistory(store: Store, user: string): (r: seq<Trade>)
    ensures user !in store ==> r == []
  {
    if user in store then store[user].trades else []
  }

  /** `place_trade`. Every property is stated against what the read-only
      operations report for the same store before the trade. */
  function PlaceTrade(store: Store, user: string, symbol: string, qty: int, price: real,
                      side: string, now: string): (r: TradeOutcome)
    // every path that returns before `save_data` leaves the store untouched,
    // including the lazily created account and the balance reset
    ensures !r.reply.Accepted? ==> r.store == store
    ensures side == "buy" ==>
              (r.reply.Accepted? <==> GetPerformance(store, user).balance >= qty as real * price)
    ensures side == "sell" ==>
              (r.reply.Rejected? <==> GetOr(GetPerformance(store, user).positions, symbol, 0) < qty)
    ensures side == "sell" ==>
              (r.reply.Raised? <==> qty <= 0 && symbol !in GetPerformance(store, user).positions)
    ensures side != "buy" && side != "sell" ==> r.reply == Rejected(InvalidSide)
    ensures r.reply.Raised? ==> side == "sell"
    ensures r.reply.Rejected? ==>
              r.reply.error == (if side == "buy" then InsufficientBalance
                                else if side == "sell" then NotEnoughShares
                                else InvalidSide)
    ensures r.reply.Accepted? ==>
              var before := GetPerformance(store, user);
              var cost := qty as real * price;
              var held := GetOr(before.positions, symbol, 0);
              && r.reply.balance == (if side == "buy" then before.balance - cost else before.balance + cost)
              && r.reply.positions == before.positions[symbol := if side == "buy" then held + qty else held - qty]
    // one save: the user's account becomes the reply, with exactly one trade
    // appended, and every other account is as it was
    ensures r.reply.Accepted? ==>
              r.store == store[user := Account(Some(r.reply.balance),
                                               GetHistory(store, user) + [Trade(symbol, qty, price, side, now)],
                                               r.reply.positions)]
  {
    var a := Working(store, user);
    var cost := qty as real * price;
    var held := GetOr(a.positions, symbol, 0);
    if side == "buy" then
      if a.balance.value < cost then TradeOutcome(Rejected(InsufficientBalance), store)
      else Save(store, user, a.balance.value - cost, a.positions[symbol := held + qty],
                a.trades + [Trade(symbol, qty, price, side, now)])
    else if side == "sell" then
      if held < qty then TradeOutcome(Rejected(NotEnoughShares), store)
      else if symbol !in a.positions then TradeOutcome(Raised, store)
      else Save(store, user, a.balance.value + cost, a.positions[symbol := a.positions[symbol] - qty],
                a.trades + [Trade(symbol, qty, price, side, now)])
    else TradeOutcome(Rejected(InvalidSide), store)
  }

  function Save(store: Store, user: string, balance: real, positions: map<string, int>,
                trades: seq<Trade>): TradeOutcome
  {
    TradeOutcome(Accepted(balance, positions), store[user := Account(Some(balance), trades, positions)])
  }

  // ---------------------------------------------------------------------
  // Invariants over any sequence of trades

  /** Non-negative balance and positions for one account. */
  ghost predicate Sound(a: Account)
  {
    && (a.balance.Some? ==> a.balance.value >= 0.0)
    && forall s :: s in a.positions ==> a.positions[s] >= 0
  }

  ghost predicate SoundStore(store: Store)
  {
    forall u :: u in store ==> Sound(store[u])
  }

  datatype Request = Request(user: string, symbol: string, qty: int, price: real, side: string, now: string)

  /** Applies the requests in order, each to the store the previous one left. */
  function Run(store: Store, reqs: seq<Request>): Store
    decreases |reqs|
  {
    if |reqs| == 0 then store
    else
      var q := reqs[0];
      Run(PlaceTrade(store, q.user, q.symbol, q.qty, q.price, q.side, q.now).store, reqs[1..])
  }

  ghost predicate PositiveRequests(reqs: seq<Request>)
  {
    forall i :: 0 <= i < |reqs| ==> reqs[i].qty > 0 && reqs[i].price > 0.0
  }

  /** With positive quantity and price, one trade keeps every balance and
      every position non-negative. */
  lemma PlaceTradeKeepsSound(store: Store, q: Request)
    requires SoundStore(store)
    requires q.qty > 0 && q.price > 0.0
    ensures SoundStore(PlaceTrade(store, q.user, q.symbol, q.qty, q.price, q.side, q.now).store)
  {
    var r := PlaceTrade(store, q.user, q.symbol, q.qty, q.price, q.side, q.now);
    if r.reply.Accepted? {
      var before := GetPerformance(store, q.user);
      assert before.balance >= 0.0;
      assert forall s :: s in before.positions ==> before.positions[s] >= 0 by {
        if q.user in store { assert Sound(store[q.user]); }
      }
      var a := r.store[q.user];
      assert Sound(a);
      forall u | u in r.store
        ensures Sound(r.store[u])
      {
        if u != q.user { assert r.store[u] == store[u]; }
      }
    }
  }

  lemma {:induction false} RunKeepsSound(store: Store, reqs: seq<Request>)
    requires SoundStore(store)
    requires PositiveRequests(reqs)
    ensures SoundStore(Run(store, reqs))
    decreases |reqs|
  {
    if |reqs| > 0 {
      var q := reqs[0];
      PlaceTradeKeepsSound(store, q);
      assert PositiveRequests(reqs[1..]) by {
        forall i | 0 <= i < |reqs[1..]| ensures reqs[1..][i].qty > 0 && reqs[1..][i].price > 0.0 {
          assert reqs[1..][i] == reqs[i + 1];
        }
      }
      RunKeepsSound(PlaceTrade(store, q.user, q.symbol, q.qty, q.price, q.side, q.now).store, reqs[1..]);
    }
  }

  /** The trade log only grows: each user's history before a run of trades
      is a prefix of the history after it. */
  lemma {:induction false} RunOnlyAppends(store: Store, reqs: seq<Request>, user: string)
    ensures GetHistory(store, user) <= GetHistory(Run(store, reqs), user)
    decreases |reqs|
  {
    if |reqs| > 0 {
      var q := reqs[0];
      var next := PlaceTrade(store, q.user, q.symbol, q.qty, q.price, q.side, q.now).store;
      assert GetHistory(store, user) <= GetHistory(next, user);
      RunOnlyAppends(next, reqs[1..], user);
    }
  }

  /** Reading back after an accepted trade: the history ends with the new
      record and, unless the new balance is itself stale, the performance
      report is exactly the trade's reply. */
  lemma AcceptedTradeIsVisible(store: Store, user: string, symbol: string, qty: int, price: real,
                               side: string, now: string)
    requires PlaceTrade(store, user, symbol, qty, price, side, now).reply.Accepted?
    requires PlaceTrade(store, user, symbol, qty, price, side, now).reply.balance < ResetThreshold
    ensures var r := PlaceTrade(store, user, symbol, qty, price, side, now);
            && GetHistory(r.store, user) == GetHistory(store, user) + [Trade(symbol, qty, price, side, now)]
            && GetPerformance(r.store, user) == Performance(r.reply.balance, r.reply.positions)
  {
  }

  // ---------------------------------------------------------------------
  // Backtest

  /** Shares bought by `initial // price`, i.e. the floor of the quotient. */
  function SharesFor(initial: real, price: real): int
    requires price != 0.0
  {
    (initial / price).Floor
  }

  /** `backtest_strategy`: buy as many whole shares as the first price
      allows, hold them to the last price. */
  function Backtest(prices: seq<real>, initial: real): (r: BacktestReport)
    ensures prices == [] <==> r == NoPriceData
    ensures r == ZeroDivision <==> prices != [] && prices[0] == 0.0
    ensures r.Report? ==> r.initialBalance == initial && r.profit == r.finalBalance - initial
    ensures r.Report? ==>
              r.profit == SharesFor(initial, prices[0]) as real * (prices[|prices| - 1] - prices[0])
    ensures r.Report? && prices[0] == prices[|prices| - 1] ==> r.profit == 0.0
  {
    if prices == [] then NoPriceData
    else if prices[0] == 0.0 then ZeroDivision
    else
      var shares := SharesFor(initial, prices[0]) as real;
      var finalBalance := (initial - shares * prices[0]) + shares * prices[|prices| - 1];
      Report(initial, finalBalance, finalBalance - initial)
  }

  /** `backtest_strategy(prices)` called without a balance: it starts from
      one million. */
  function BacktestDefault(prices: seq<real>): (r: BacktestReport)
    ensures prices == [] <==> r == NoPriceData
    ensures r.Report? ==> r.initialBalance == 1000000.0 && r.finalBalance == 1000000.0 + r.profit
  {
    Backtest(prices, BacktestDefaultBalance)
  }

  /** The cash left after buying is in `[0, prices[0])` for a positive
      first price: the backtest buys as many shares as it can afford. */
  lemma BacktestLeftoverCash(initial: real, p0: real)
    requires p0 > 0.0
    ensures var shares := SharesFor(initial, p0) as real;
            0.0 <= initial - shares * p0 < p0
  {
    var q := initial / p0;
    var n := q.Floor as real;
    var d := q - n;
    assert SharesFor(initial, p0) as real == n;
    assert 0.0 <= d < 1.0;
    QuotientTimes(initial, p0);
    Distribute(q, n, p0);
    assert d * p0 == initial - n * p0;
    MulMonotone(0.0, d, p0);
    MulMonotone(d, 1.0, p0);
    assert 0.0 * p0 == 0.0 && 1.0 * p0 == p0;
  }

  lemma QuotientTimes(x: real, y: real)
    requires y != 0.0
    ensures x / y * y == x
  {
  }

  lemma Distribute(a: real, b: real, c: real)
    ensures (a - b) * c == a * c - b * c
  {
  }

  lemma MulMonotone(a: real, b: real, c: real)
    requires a <= b && c > 0.0
    ensures a * c <= b * c
    ensures a < b ==> a * c < b * c
  {
  }

  /** 1000 at [100, 150]: 10 shares bought at 100 and held to 150. */
  lemma BacktestExample()
    ensures Backtest([100.0, 150.0], 1000.0) == Report(1000.0, 1500.0, 500.0)
  {
    assert SharesFor(1000.0, 100.0) == 10;
  }
}

=== FILE: portfolio_view.dfy ===
/** The arithmetic of the portfolio page: the weighted-average buy price
    folded over the trade history, one holding per held position, and the
    summary totals. Numbers are exact reals; the price lookup is the oracle
    `quote`, `None` standing for the `null` it returns on failure. */
module PortfolioView {
  import opened Wrappers

  /** Share of the current price assumed as the buy price of a position
      with no recorded buy. */
  const FallbackRatio: real := 0.95

  datatype Trade = Trade(symbol: string, qty: real, price: real, side: string)

  /** `avgPrices` and `totalQuantities`, keyed by symbol. */
  datatype Costs = Costs(avg: map<string, real>, total: map<string, real>)

  datatype Holding = Holding(symbol: string, quantity: real, avgPrice: real, invested: real,
                             currentPrice: real, currentValue: real, profit: real, profitPercentage: real)

  datatype Summary = Summary(totalInvested: real, currentValue: real, totalProfit: real, profitPercentage: real)

  // ---------------------------------------------------------------------
  // The average-price fold

  ghost predicate WellFormed(c: Costs)
  {
    c.avg.Keys == c.total.Keys && forall s :: s in c.total ==> c.total[s] >= 0.0
  }

  ghost predicate PositiveBuys(ts: seq<Trade>)
  {
    forall i :: 0 <= i < |ts| ==> ts[i].side == "buy" ==> ts[i].qty > 0.0
  }

  /** One `forEach` step. A missing or zero average (JavaScript-falsy)
      restarts both the average and the quantity of the symbol. */
  function Step(c: Costs, t: Trade): (r: Costs)
    requires WellFormed(c)
    requires t.side == "buy" ==> t.qty > 0.0
    ensures WellFormed(r)
  {
    if t.side != "buy" then c
    else
      var restart := t.symbol !in c.avg || c.avg[t.symbol] == 0.0;
      var a := if restart then 0.0 else c.avg[t.symbol];
      var q := if restart then 0.0 else c.total[t.symbol];
      Costs(c.avg[t.symbol := Blend(a, q, t.price, t.qty)], c.total[t.symbol := q + t.qty])
  }

  /** The average price of `q` shares at `a` and `k` shares at `p`. */
  function Blend(a: real, q: real, p: real, k: real): (r: real)
    requires q + k != 0.0
    ensures r * (q + k) == a * q + p * k
  {
    (a * q + p * k) / (q + k)
  }

  /** The fold over the whole history, in history order. */
  function AverageCosts(ts: seq<Trade>): (r: Costs)
    requires PositiveBuys(ts)
    ensures WellFormed(r)
    decreases |ts|
  {
    if |ts| == 0 then Costs(map[], map[])
    else
      assert PositiveBuys(ts[..|ts| - 1]) by {
        forall i | 0 <= i < |ts| - 1 ensures ts[..|ts| - 1][i] == ts[i] { }
      }
      Step(AverageCosts(ts[..|ts| - 1]), ts[|ts| - 1])
  }

  /** The money one trade spends on `s`: price times quantity for a buy of
      `s`, nothing otherwise. */
  function Spent(t: Trade, s: string): real
  {
    if t.side == "buy" && t.symbol == s then t.price * t.qty else 0.0
  }

  /** Sum of `price * qty` over the buys of `s`. */
  function BuyCost(ts: seq<Trade>, s: string): real
    decreases |ts|
  {
    if |ts| == 0 then 0.0 else BuyCost(ts[..|ts| - 1], s) + Spent(ts[|ts| - 1], s)
  }

  /** Sum of `qty` over the buys of `s`. */
  function BuyQty(ts: seq<Trade>, s: string): real
    decreases |ts|
  {
    if |ts| == 0 then 0.0
    else
      var t := ts[|ts| - 1];
      BuyQty(ts[..|ts| - 1], s) + (if t.side == "buy" && t.symbol == s then t.qty else 0.0)
  }

  /** Average times quantity of `s` in `c` accounts for `cost`, and a
      symbol without an entry has cost 0. */
  ghost predicate Tracks(c: Costs, s: string, cost: real)
    requires WellFormed(c)
  {
    && (s in c.avg ==> c.avg[s] * c.total[s] == cost)
    && (s !in c.avg ==> cost == 0.0)
  }

  /** The fold of a non-empty history is one step after the fold of all but
      its last trade. */
  lemma AverageCostsLast(ts: seq<Trade>)
    requires PositiveBuys(ts) && |ts| > 0
    ensures PositiveBuys(ts[..|ts| - 1])
    ensures AverageCosts(ts) == Step(AverageCosts(ts[..|ts| - 1]), ts[|ts| - 1])
  {
  }

  /** A sell, or any trade that is not a buy, leaves both maps alone. */
  lemma SellLeavesCosts(ts: seq<Trade>, t: Trade)
    requires PositiveBuys(ts) && t.side != "buy"
    ensures PositiveBuys(ts + [t])
    ensures AverageCosts(ts + [t]) == AverageCosts(ts)
  {
    assert (ts + [t])[..|ts|] == ts;
  }

  /** After the fold, average times quantity is the money spent on buys of
      the symbol; a symbol never bought has no entry and cost 0. */
  lemma {:induction false} AverageTimesQuantityIsCost(ts: seq<Trade>, s: string)
    requires PositiveBuys(ts)
    ensures Tracks(AverageCosts(ts), s, BuyCost(ts, s))
    decreases |ts|
  {
    if |ts| > 0 {
      var init := ts[..|ts| - 1];
      var t := ts[|ts| - 1];
      AverageCostsLast(ts);
      AverageTimesQuantityIsCost(init, s);
      StepKeepsCost(AverageCosts(init), t, s, BuyCost(init, s));
    }
  }

  /** One fold step adds the step's own buy cost to average times quantity. */
  lemma StepKeepsCost(c: Costs, t: Trade, s: string, before: real)
    requires WellFormed(c)
    requires t.side == "buy" ==> t.qty > 0.0
    requires Tracks(c, s, before)
    ensures Tracks(Step(c, t), s, before + Spent(t, s))
  {
    if t.side == "buy" && t.symbol == s {
      StepOwnBuy(c, t, before);
    } else {
      StepOtherTrade(c, t, s, before);
    }
  }

  /** A trade that is not a buy of `s` leaves `s`'s entries alone. */
  lemma StepOtherTrade(c: Costs, t: Trade, s: string, before: real)
    requires WellFormed(c)
    requires t.side == "buy" ==> t.qty > 0.0
    requires !(t.side == "buy" && t.symbol == s)
    requires Tracks(c, s, before)
    ensures Spent(t, s) == 0.0
    ensures Tracks(Step(c, t), s, before)
  {
    var c' := Step(c, t);
    assert s in c'.avg <==> s in c.avg;
    if s in c.avg {
      assert c'.avg[s] == c.avg[s] && c'.total[s] == c.total[s];
    }
  }

  /** A buy of the symbol adds its own cost. */
  lemma StepOwnBuy(c: Costs, t: Trade, before: real)
    requires WellFormed(c)
    requires t.side == "buy" && t.qty > 0.0
    requires Tracks(c, t.symbol, before)
    ensures Tracks(Step(c, t), t.symbol, before + t.price * t.qty)
  {
    var s := t.symbol;
    var c' := Step(c, t);
    if s !in c.avg || c.avg[s] == 0.0 {
      assert before == 0.0 by {
        if s in c.avg { ZeroTimes(c.total[s]); }
      }
      RestartTracks(c', s, t.price, t.qty);
    } else {
      BlendAdds(c.avg[s], c.total[s], t.price, t.qty, before);
      KeepTracks(c', s, c.avg[s], c.total[s], t.price, t.qty, before);
    }
  }

  lemma RestartTracks(c': Costs, s: string, p: real, k: real)
    requires WellFormed(c') && k > 0.0
    requires s in c'.avg && c'.avg[s] == Blend(0.0, 0.0, p, k) && c'.total[s] == k
    ensures Tracks(c', s, 0.0 + p * k)
  {
    BlendAdds(0.0, 0.0, p, k, 0.0);
  }

  lemma KeepTracks(c': Costs, s: string, a: real, q: real, p: real, k: real, before: real)
    requires WellFormed(c') && q + k != 0.0
    requires s in c'.avg && c'.avg[s] == Blend(a, q, p, k) && c'.total[s] == q + k
    requires Blend(a, q, p, k) * (q + k) == before + p * k
    ensures Tracks(c', s, before + p * k)
  {
  }

  lemma ZeroTimes(x: real)
    ensures 0.0 * x == 0.0
  {
  }

  /** Blending in `k` shares at `p` adds `p * k` to average times quantity. */
  lemma BlendAdds(a: real, q: real, p: real, k: real, before: real)
    requires q + k != 0.0 && a * q == before
    ensures Blend(a, q, p, k) * (q + k) == before + p * k
  {
  }

  /** With positive buy prices no average is ever 0, so no restart happens
      and the quantity is the total bought. */
  lemma {:induction false} QuantityIsTotalBought(ts: seq<Trade>, s: string)
    requires PositiveBuys(ts)
    requires forall i :: 0 <= i < |ts| ==> ts[i].side == "buy" ==> ts[i].price > 0.0
    ensures var c := AverageCosts(ts);
            && (s in c.total ==> c.total[s] == BuyQty(ts, s) && c.avg[s] > 0.0)
            && (s !in c.total ==> BuyQty(ts, s) == 0.0)
    decreases |ts|
  {
    if |ts| > 0 {
      var init := ts[..|ts| - 1];
      var t := ts[|ts| - 1];
      assert PositiveBuys(init) by {
        forall i | 0 <= i < |init| ensures init[i] == ts[i] { }
      }
      QuantityIsTotalBought(init, s);
      var c := AverageCosts(init);
      if t.side == "buy" && t.symbol == s {
        var restart := s !in c.avg;
        var a := if restart then 0.0 else c.avg[s];
        var q := if restart then 0.0 else c.total[s];
        assert a * q >= 0.0;
        assert t.price * t.qty > 0.0;
        PositiveQuotient(a * q + t.price * t.qty, q + t.qty);
      }
    }
  }

  lemma PositiveQuotient(x: real, y: real)
    requires x > 0.0 && y > 0.0
    ensures x / y > 0.0
  {
  }

  /** A free first buy makes the average 0, which the next buy reads as
      "no average yet": the earlier quantity is dropped from the total. */
  lemma FreeBuyRestartsQuantity()
    ensures var ts := [Trade("ACME", 1.0, 0.0, "buy"), Trade("ACME", 2.0, 5.0, "buy")];
            AverageCosts(ts).total["ACME"] == 2.0 && BuyQty(ts, "ACME") == 3.0
  {
    var ts := [Trade("ACME", 1.0, 0.0, "buy"), Trade("ACME", 2.0, 5.0, "buy")];
    assert ts[..1] == [Trade("ACME", 1.0, 0.0, "buy")];
    assert ts[..1][..0] == [];
  }

  // ---------------------------------------------------------------------
  // Holdings and summary

  /** One holding: a position without a recorded (non-zero) average buy
      price is valued at 95% of the current price. */
  function MakeHolding(symbol: string, quantity: real, avg: map<string, real>, currentPrice: real): (h: Holding)
    ensures h.symbol == symbol && h.quantity == quantity && h.currentPrice == currentPrice
    ensures symbol !in avg || avg[symbol] == 0.0 ==> h.avgPrice == FallbackRatio * currentPrice
    ensures symbol in avg && avg[symbol] != 0.0 ==> h.avgPrice == avg[symbol]
    ensures Consistent(h)
  {
    var avgPrice := if symbol in avg && avg[symbol] != 0.0 then avg[symbol] else currentPrice * FallbackRatio;
    var invested := quantity * avgPrice;
    var currentValue := quantity * currentPrice;
    var profit := currentValue - invested;
    Holding(symbol, quantity, avgPrice, invested, currentPrice, currentValue, profit,
            if invested > 0.0 then profit / invested * 100.0 else 0.0)
  }

  /** Profit is value minus cost, and the percentage is 0 without a
      positive cost. */
  ghost predicate Consistent(h: Holding)
  {
    && h.invested == h.quantity * h.avgPrice
    && h.currentValue == h.quantity * h.currentPrice
    && h.profit == h.currentValue - h.invested
    && h.profitPercentage == (if h.invested > 0.0 then h.profit / h.invested * 100.0 else 0.0)
  }

  /** The positions with a positive quantity, in order. */
  function PositivePositions(positions: seq<(string, real)>): seq<(string, real)>
  {
    if |positions| == 0 then []
    else if positions[0].1 > 0.0 then [positions[0]] + PositivePositions(positions[1..])
    else PositivePositions(positions[1..])
  }

  function Entry(h: Holding): (string, real)
  {
    (h.symbol, h.quantity)
  }

  /** One holding per position with a positive quantity, priced by `quote`
      (`null` counts as 0). */
  function Holdings(positions: seq<(string, real)>, avg: map<string, real>,
                    quote: string -> Option<real>): (r: seq<Holding>)
    ensures |r| == |PositivePositions(positions)|
    ensures forall i :: 0 <= i < |r| ==> Entry(r[i]) == PositivePositions(positions)[i] && r[i].quantity > 0.0
    ensures forall i :: 0 <= i < |r| ==> Consistent(r[i]) && r[i].currentPrice == quote(r[i].symbol).GetOr(0.0)
    ensures forall i :: 0 <= i < |r| ==>
              r[i].avgPrice == if r[i].symbol in avg && avg[r[i].symbol] != 0.0 then avg[r[i].symbol]
                               else FallbackRatio * r[i].currentPrice
  {
    if |positions| == 0 then []
    else
      var rest := Holdings(positions[1..], avg, quote);
      var (symbol, quantity) := positions[0];
      if quantity > 0.0 then [MakeHolding(symbol, quantity, avg, quote(symbol).GetOr(0.0))] + rest
      else rest
  }

  function SumInvested(hs: seq<Holding>): real
  {
    if |hs| == 0 then 0.0 else hs[0].invested + SumInvested(hs[1..])
  }

  function SumValue(hs: seq<Holding>): real
  {
    if |hs| == 0 then 0.0 else hs[0].currentValue + SumValue(hs[1..])
  }

  function SumProfit(hs: seq<Holding>): real
  {
    if |hs| == 0 then 0.0 else hs[0].profit + SumProfit(hs[1..])
  }

  /** The summary card. */
  function Summarize(hs: seq<Holding>): (r: Summary)
    ensures r.totalInvested == SumInvested(hs) && r.currentValue == SumValue(hs)
    ensures r.totalProfit == r.currentValue - r.totalInvested
    ensures r.totalInvested <= 0.0 ==> r.profitPercentage == 0.0
    ensures r.totalInvested > 0.0 ==> r.profitPercentage == r.totalProfit / r.totalInvested * 100.0
  {
    var invested := SumInvested(hs);
    var value := SumValue(hs);
    var profit := value - invested;
    Summary(invested, value, profit, if invested > 0.0 then profit / invested * 100.0 else 0.0)
  }

  /** The total profit is also the sum of the holdings' own profits. */
  lemma {:induction false} TotalProfitIsSumOfProfits(hs: seq<Holding>)
    requires forall i :: 0 <= i < |hs| ==> Consistent(hs[i])
    ensures Summarize(hs).totalProfit == SumProfit(hs)
    decreases |hs|
  {
    if |hs| > 0 {
      TotalProfitIsSumOfProfits(hs[1..]);
    }
  }

  /** The whole page computation: fold the history, build the holdings,
      summarize. */
  function PortfolioPage(positions: seq<(string, real)>, trades: seq<Trade>,
                         quote: string -> Option<real>): (r: (seq<Holding>, Summary))
    requires PositiveBuys(trades)
    ensures |r.0| == |PositivePositions(positions)|
    ensures r.1.totalProfit == SumProfit(r.0)
  {
    var hs := Holdings(positions, AverageCosts(trades).avg, quote);
    TotalProfitIsSumOfProfits(hs);
    (hs, Summarize(hs))
  }
}

=== FILE: trading_routes.dfy ===
/** The unauthenticated Express ledger (`/trade`, `/history`, `/portfolio`,
    `/add-funds`).

    Its distinguishing rules: requests are only checked for missing fields,
    a shares check runs for side "sell" and a funds check for side "buy",
    every side other than "buy" executes as a sell, a position that reaches
    zero is kept, and the Trade record is created only after the portfolio
    has been saved. The Trade schema only admits "buy" and "sell", so for
    any other side the portfolio is saved and then the record's `save`
    throws, which the route turns into a 500 reply. */
module TradingRoutes {
  import opened Wrappers
  import opened MongoLedger

  datatype Status =
    | Ok(trade: Trade)
    | MissingFields
    | NotEnoughShares(held: real, symbol: string)
    | InsufficientFunds(required: real, available: real)
      /** the 500 reply after the Trade schema refused the side */
    | ServerError

  datatype Outcome = Outcome(status: Status, db: Db)

  /** The portfolio after executing the request unconditionally: a buy
      debits and adds shares, anything else credits and removes shares. */
  function Executed(p: Portfolio, req: TradeRequest): Portfolio
  {
    var held := Held(p, req.symbol);
    if req.side == "buy" then Portfolio(p.balance - TradeValue(req), p.positions[req.symbol := held + req.qty])
    else Portfolio(p.balance + TradeValue(req), p.positions[req.symbol := held - req.qty])
  }

  /** `POST /trade` at time `now`. */
  function PostTrade(db: Db, req: TradeRequest, now: int): (r: Outcome)
    ensures MissingField(req) ==> r == Outcome(MissingFields, db)
    ensures r.status.MissingFields? <==> MissingField(req)
    // a complete buy or sell is accepted exactly when its check passes
    ensures !MissingField(req) && req.side == "buy" ==>
              (r.status.Ok? <==> Current(db, req.user).balance >= TradeValue(req))
    ensures !MissingField(req) && req.side == "sell" ==>
              (r.status.Ok? <==> Held(Current(db, req.user), req.symbol) >= req.qty)
    // a sell is refused on shares only, a buy on funds only
    ensures !MissingField(req) && req.side == "sell" ==>
              (r.status.NotEnoughShares? <==> Held(Current(db, req.user), req.symbol) < req.qty)
              && !r.status.InsufficientFunds?
    ensures !MissingField(req) && req.side == "buy" ==>
              (r.status.InsufficientFunds? <==> Current(db, req.user).balance < TradeValue(req))
              && !r.status.NotEnoughShares?
    ensures r.status.NotEnoughShares? ==>
              r.status == NotEnoughShares(Held(Current(db, req.user), req.symbol), req.symbol)
    ensures r.status.InsufficientFunds? ==>
              r.status == InsufficientFunds(TradeValue(req), Current(db, req.user).balance)
    // a refusal writes nothing
    ensures r.status.MissingFields? || r.status.NotEnoughShares? || r.status.InsufficientFunds? ==> r.db == db
    // any side but buy or sell passes the route but not the Trade schema
    ensures r.status.ServerError? <==> !MissingField(req) && req.side != "buy" && req.side != "sell"
    // only an accepted trade is recorded, as one appended record
    ensures r.status.Ok? ==>
              && r.status.trade == Trade(req.user, req.symbol, req.qty, req.price, req.side, now)
              && r.db.trades == db.trades + [r.status.trade]
    ensures !r.status.Ok? ==> r.db.trades == db.trades
    // an executed request saves exactly the user's portfolio
    ensures r.status.Ok? || r.status.ServerError? ==> req.user in r.db.portfolios
    ensures r.status.Ok? || r.status.ServerError? ==>
              var before := Current(db, req.user);
              var held := Held(before, req.symbol);
              var after := r.db.portfolios[req.user];
              && r.db.portfolios == db.portfolios[req.user := after]
              && (req.side == "buy" ==>
                    after.balance == before.balance - TradeValue(req)
                    && after.positions == before.positions[req.symbol := held + req.qty])
              && (req.side != "buy" ==>
                    after.balance == before.balance + TradeValue(req)
                    && req.symbol in after.positions
                    && after.positions == before.positions[req.symbol := held - req.qty])
  {
    if MissingField(req) then Outcome(MissingFields, db)
    else
      var p := Current(db, req.user);
      var held := Held(p, req.symbol);
      if req.side == "sell" && held < req.qty then Outcome(NotEnoughShares(held, req.symbol), db)
      else if req.side == "buy" && p.balance < TradeValue(req) then
        Outcome(InsufficientFunds(TradeValue(req), p.balance), db)
      else
        var saved := db.(portfolios := db.portfolios[req.user := Executed(p, req)]);
        if req.side == "buy" || req.side == "sell" then
          var trade := Trade(req.user, req.symbol, req.qty, req.price, req.side, now);
          Outcome(Ok(trade), saved.(trades := db.trades + [trade]))
        else Outcome(ServerError, saved)
  }

  /** `GET /portfolio/:user`: the stored portfolio, or the default one,
      which is then created in the collection. */
  function GetPortfolio(db: Db, user: string): (r: (Portfolio, Db))
    ensures user !in db.portfolios ==>
              r.0 == Portfolio(DefaultBalance, map[])
              && r.1 == db.(portfolios := db.portfolios[user := r.0])
    ensures user in db.portfolios ==> r == (db.portfolios[user], db)
  {
    if user in db.portfolios then (db.portfolios[user], db)
    else (NewPortfolio, db.(portfolios := db.portfolios[user := NewPortfolio]))
  }

  /** Reading the portfolio twice gives the same answer; only the first
      read of an unknown user writes. */
  lemma GetPortfolioIdempotent(db: Db, user: string)
    ensures var (p1, db1) := GetPortfolio(db, user);
            var (p2, db2) := GetPortfolio(db1, user);
            p2 == p1 && db2 == db1
  {
  }

  datatype FundsStatus = Added(newBalance: real) | InvalidInput

  /** `POST /add-funds`. */
  function AddFunds(db: Db, user: string, amount: real): (r: (FundsStatus, Db))
    ensures r.0.InvalidInput? <==> user == "" || amount <= 0.0
    ensures r.0.InvalidInput? ==> r.1 == db
    ensures r.0.Added? ==>
              && r.0.newBalance == Current(db, user).balance + amount
              && r.1 == db.(portfolios := db.portfolios[user := Current(db, user).(balance := r.0.newBalance)])
  {
    if user == "" || amount <= 0.0 then (InvalidInput, db)
    else
      var p := Current(db, user);
      var p' := p.(balance := p.balance + amount);
      (Added(p'.balance), db.(portfolios := db.portfolios[user := p']))
  }

  /** Two deposits leave the account where one deposit of their sum would. */
  lemma AddFundsAdditive(db: Db, user: string, a: real, b: real)
    requires user != "" && a > 0.0 && b > 0.0
    ensures AddFunds(AddFunds(db, user, a).1, user, b).1 == AddFunds(db, user, a + b).1
  {
  }

  /** After depositing the shortfall, the buy that was refused goes through. */
  lemma DepositCoversShortfall(db: Db, req: TradeRequest, now: int)
    requires !MissingField(req) && req.side == "buy"
    requires PostTrade(db, req, now).status.InsufficientFunds?
    ensures var shortfall := TradeValue(req) - Current(db, req.user).balance;
            PostTrade(AddFunds(db, req.user, shortfall).1, req, now).status.Ok?
  {
  }

  // ---------------------------------------------------------------------
  // Invariant and its gaps

  ghost predicate Healthy(p: Portfolio)
  {
    && p.balance >= 0.0
    && forall s :: s in p.positions ==> p.positions[s] >= 0.0
  }

  ghost predicate HealthyDb(db: Db)
  {
    forall u :: u in db.portfolios ==> Healthy(db.portfolios[u])
  }

  /** With a positive quantity and price and a side of buy or sell, balances
      and positions stay non-negative; a position may stay at zero. */
  lemma PostTradeKeepsHealthy(db: Db, req: TradeRequest, now: int)
    requires HealthyDb(db)
    requires req.qty > 0.0 && req.price > 0.0 && (req.side == "buy" || req.side == "sell")
    ensures HealthyDb(PostTrade(db, req, now).db)
  {
    var r := PostTrade(db, req, now);
    if r.status.Ok? {
      var before := Current(db, req.user);
      assert Healthy(before) by {
        if req.user in db.portfolios { assert Healthy(db.portfolios[req.user]); }
      }
      assert TradeValue(req) > 0.0;
      var after := r.db.portfolios[req.user];
      assert Healthy(after) by {
        forall s | s in after.positions ensures after.positions[s] >= 0.0 {
          if s != req.symbol { assert after.positions[s] == before.positions[s]; }
        }
      }
      forall u | u in r.db.portfolios ensures Healthy(r.db.portfolios[u]) {
        if u != req.user { assert r.db.portfolios[u] == db.portfolios[u]; }
      }
    }
  }

  /** Selling every share keeps the symbol with a zero quantity. */
  lemma SellAllKeepsZero(db: Db, req: TradeRequest, now: int)
    requires !MissingField(req) && req.side == "sell"
    requires Held(Current(db, req.user), req.symbol) == req.qty
    ensures var r := PostTrade(db, req, now);
            r.status.Ok? && r.db.portfolios[req.user].positions[req.symbol] == 0.0
  {
  }

  /** Only "sell" is share-checked: a side of "hold" for 5 shares on an
      account holding 2 is executed as a sell, leaving a negative position
      behind a 500 reply. */
  lemma OtherSideSkipsShareCheck()
    ensures var db := Db(map["u" := Portfolio(DefaultBalance, map["ACME" := 2.0])], []);
            var r := PostTrade(db, TradeRequest("u", "ACME", 5.0, 10.0, "hold"), 0);
            && r.status == ServerError
            && r.db.portfolios["u"] == Portfolio(DefaultBalance + 50.0, map["ACME" := -3.0])
            && r.db.trades == []
  {
  }

  /** Nothing rejects a negative quantity: a "buy" of -5 shares credits the
      account and leaves a negative position. */
  lemma NegativeBuyAccepted()
    ensures var r := PostTrade(Db(map[], []), TradeRequest("u", "ACME", -5.0, 10.0, "buy"), 0);
            && r.status.Ok?
            && r.db.portfolios["u"] == Portfolio(DefaultBalance + 50.0, map["ACME" := -5.0])
  {
  }
}

=== FILE: watchlist.dfy ===
/** The JSON-file watchlist store: a list of (user, symbol, name) entries,
    kept free of duplicate (user, symbol) pairs by `add`. The file is the
    sequence passed in; `written` says whether `save_watchlist` runs. */
module Watchlist {

  datatype Item = Item(user: string, symbol: string, name: string)

  datatype Reply = Reply(success: bool, message: string)

  datatype Update = Update(reply: Reply, list: seq<Item>, written: bool)

  const AlreadyPresent := "Stock already in watchlist"
  const Added := "Stock added to watchlist"
  const Removed := "Stock removed from watchlist"
  const NotFound := "Stock not found in watchlist"

  predicate Matches(it: Item, user: string, symbol: string)
  {
    it.user == user && it.symbol == symbol
  }

  predicate Contains(list: seq<Item>, user: string, symbol: string)
  {
    exists i :: 0 <= i < |list| && Matches(list[i], user, symbol)
  }

  /** No two entries share a (user, symbol) pair. */
  ghost predicate Keyed(list: seq<Item>)
  {
    forall i, j :: 0 <= i < j < |list| ==> !Matches(list[j], list[i].user, list[i].symbol)
  }

  /** `add_to_watchlist`: a pair already present is reported as success
      without touching the file; a new pair is appended. */
  function Add(list: seq<Item>, item: Item): (r: Update)
    ensures Contains(list, item.user, item.symbol) ==> r == Update(Reply(true, AlreadyPresent), list, false)
    ensures !Contains(list, item.user, item.symbol) ==> r == Update(Reply(true, Added), list + [item], true)
    ensures Keyed(list) ==> Keyed(r.list)
  {
    if Contains(list, item.user, item.symbol) then Update(Reply(true, AlreadyPresent), list, false)
    else Update(Reply(true, Added), list + [item], true)
  }

  /** The entries that do not match (user, symbol), in stored order. */
  function Without(list: seq<Item>, user: string, symbol: string): (r: seq<Item>)
    ensures forall it :: multiset(r)[it] == if Matches(it, user, symbol) then 0 else multiset(list)[it]
    ensures forall i :: 0 <= i < |r| ==> !Matches(r[i], user, symbol)
    ensures |r| <= |list|
  {
    if |list| == 0 then []
    else
      var rest := Without(list[1..], user, symbol);
      assert list == [list[0]] + list[1..];
      if Matches(list[0], user, symbol) then rest else [list[0]] + rest
  }

  /** Filtering shortens the list exactly when the pair is present. */
  lemma {:induction false} WithoutShorterIff(list: seq<Item>, user: string, symbol: string)
    ensures |Without(list, user, symbol)| < |list| <==> Contains(list, user, symbol)
    decreases |list|
  {
    if |list| > 0 {
      WithoutShorterIff(list[1..], user, symbol);
      if Contains(list[1..], user, symbol) {
        var i :| 0 <= i < |list[1..]| && Matches(list[1..][i], user, symbol);
        assert list[i + 1] == list[1..][i];
      }
      if Contains(list, user, symbol) && !Matches(list[0], user, symbol) {
        var i :| 0 <= i < |list| && Matches(list[i], user, symbol);
        assert list[1..][i - 1] == list[i];
      }
    }
  }

  /** `remove_from_watchlist`: drops every entry of the pair, whatever its
      name, and writes and reports success only if something was dropped. */
  function Remove(list: seq<Item>, item: Item): (r: Update)
    ensures r.reply.success <==> Contains(list, item.user, item.symbol)
    ensures r.written == r.reply.success
    ensures r.reply == if r.reply.success then Reply(true, Removed) else Reply(false, NotFound)
    ensures !r.written ==> r.list == list
    ensures !Contains(r.list, item.user, item.symbol)
    ensures forall it :: multiset(r.list)[it] == if Matches(it, item.user, item.symbol) then 0 else multiset(list)[it]
  {
    var updated := Without(list, item.user, item.symbol);
    WithoutShorterIff(list, item.user, item.symbol);
    if |updated| < |list| then Update(Reply(true, Removed), updated, true)
    else Update(Reply(false, NotFound), list, false)
  }

  /** `get_user_watchlist`: the user's entries in stored order. */
  function ListFor(list: seq<Item>, user: string): (r: seq<Item>)
    ensures forall it :: multiset(r)[it] == if it.user == user then multiset(list)[it] else 0
  {
    if |list| == 0 then []
    else
      assert list == [list[0]] + list[1..];
      if list[0].user == user then [list[0]] + ListFor(list[1..], user) else ListFor(list[1..], user)
  }

  /** `check_in_watchlist`: scans the list for the pair. */
  method Check(list: seq<Item>, user: string, symbol: string) returns (found: bool)
    ensures found <==> Contains(list, user, symbol)
  {
    var k := 0;
    while k < |list|
      invariant 0 <= k <= |list|
      invariant forall i :: 0 <= i < k ==> !Matches(list[i], user, symbol)
    {
      if list[k].user == user && list[k].symbol == symbol {
        return true;
      }
      k := k + 1;
    }
    return false;
  }

  // ---------------------------------------------------------------------
  // Properties relating the operations

  /** Filtering is done entry by entry: it distributes over concatenation,
      so the kept entries stay in their stored order. */
  lemma {:induction false} WithoutDistributes(a: seq<Item>, b: seq<Item>, user: string, symbol: string)
    ensures Without(a + b, user, symbol) == Without(a, user, symbol) + Without(b, user, symbol)
    decreases |a|
  {
    if |a| == 0 {
      assert a + b == b;
    } else {
      assert (a + b)[1..] == a[1..] + b;
      WithoutDistributes(a[1..], b, user, symbol);
    }
  }

  lemma {:induction false} ListForDistributes(a: seq<Item>, b: seq<Item>, user: string)
    ensures ListFor(a + b, user) == ListFor(a, user) + ListFor(b, user)
    decreases |a|
  {
    if |a| == 0 {
      assert a + b == b;
    } else {
      assert (a + b)[1..] == a[1..] + b;
      ListForDistributes(a[1..], b, user);
    }
  }

  /** Removing a pair that is absent changes nothing. */
  lemma {:induction false} WithoutAbsent(list: seq<Item>, user: string, symbol: string)
    requires !Contains(list, user, symbol)
    ensures Without(list, user, symbol) == list
    decreases |list|
  {
    if |list| > 0 {
      assert !Matches(list[0], user, symbol);
      assert !Contains(list[1..], user, symbol) by {
        forall i | 0 <= i < |list[1..]| ensures !Matches(list[1..][i], user, symbol) {
          assert list[1..][i] == list[i + 1];
        }
      }
      WithoutAbsent(list[1..], user, symbol);
      assert list == [list[0]] + list[1..];
    }
  }

  /** Adding a new pair and removing it again restores the list. */
  lemma AddThenRemove(list: seq<Item>, item: Item)
    requires !Contains(list, item.user, item.symbol)
    ensures Remove(Add(list, item).list, item).list == list
  {
    WithoutDistributes(list, [item], item.user, item.symbol);
    WithoutAbsent(list, item.user, item.symbol);
    assert Without([item], item.user, item.symbol) == [];
  }

  /** `check` agrees with the last update of the pair. */
  lemma CheckAfterUpdates(list: seq<Item>, item: Item, other: Item)
    ensures Contains(Add(list, item).list, item.user, item.symbol)
    ensures !Contains(Remove(list, item).list, item.user, item.symbol)
    ensures other.user == item.user && other.symbol == item.symbol ==> Remove(list, other) == Remove(list, item)
  {
    if !Contains(list, item.user, item.symbol) {
      var l := Add(list, item).list;
      assert Matches(l[|l| - 1], item.user, item.symbol);
    }
  }

  /** Remove keeps the store keyed. */
  lemma RemoveKeepsKeyed(list: seq<Item>, item: Item)
    requires Keyed(list)
    ensures Keyed(Remove(list, item).list)
  {
    var u := Remove(list, item);
    if u.written {
      KeyedWithout(list, item.user, item.symbol);
    }
  }

  /** Every entry the filter keeps comes from the list. */
  lemma WithoutFromList(list: seq<Item>, user: string, symbol: string, x: Item)
    requires x in Without(list, user, symbol)
    ensures x in list
  {
    assert x in multiset(Without(list, user, symbol));
    assert x in multiset(list);
  }

  lemma {:induction false} KeyedTail(list: seq<Item>)
    requires Keyed(list) && |list| > 0
    ensures Keyed(list[1..])
    ensures !Contains(list[1..], list[0].user, list[0].symbol)
  {
    forall i, j | 0 <= i < j < |list[1..]|
      ensures !Matches(list[1..][j], list[1..][i].user, list[1..][i].symbol)
    {
      assert list[1..][i] == list[i + 1] && list[1..][j] == list[j + 1];
    }
    forall j | 0 <= j < |list[1..]| ensures !Matches(list[1..][j], list[0].user, list[0].symbol) {
      assert list[1..][j] == list[j + 1];
    }
  }

  lemma {:induction false} KeyedWithout(list: seq<Item>, user: string, symbol: string)
    requires Keyed(list)
    ensures Keyed(Without(list, user, symbol))
    decreases |list|
  {
    if |list| > 0 {
      var rest := Without(list[1..], user, symbol);
      KeyedTail(list);
      KeyedWithout(list[1..], user, symbol);
      if !Matches(list[0], user, symbol) {
        AbsentFromWithout(list[1..], user, symbol, list[0]);
        KeyedCons(list[0], rest);
        assert Without(list, user, symbol) == [list[0]] + rest;
      }
    }
  }

  /** A pair absent from a list is absent from its filtered version. */
  lemma AbsentFromWithout(list: seq<Item>, user: string, symbol: string, x: Item)
    requires !Contains(list, x.user, x.symbol)
    ensures !Contains(Without(list, user, symbol), x.user, x.symbol)
  {
    var rest := Without(list, user, symbol);
    forall j | 0 <= j < |rest| ensures !Matches(rest[j], x.user, x.symbol) {
      WithoutFromList(list, user, symbol, rest[j]);
      var k :| 0 <= k < |list| && list[k] == rest[j];
    }
  }

  /** Putting a new pair in front of a keyed list keeps it keyed. */
  lemma KeyedCons(x: Item, rest: seq<Item>)
    requires Keyed(rest) && !Contains(rest, x.user, x.symbol)
    ensures Keyed([x] + rest)
  {
    var r := [x] + rest;
    forall i, j | 0 <= i < j < |r| ensures !Matches(r[j], r[i].user, r[i].symbol) {
      if i == 0 {
        assert r[j] == rest[j - 1];
      } else {
        assert r[i] == rest[i - 1] && r[j] == rest[j - 1];
      }
    }
  }
}

=== FILE: wrappers.dfy ===
/** Small shared helpers: an optional value and the "get with a default"
    lookup that both the Python (`dict.get(k, 0)`) and the JavaScript
    (`map.get(k) || 0`) ledgers use on position maps. */
module Wrappers {

  datatype Option<+T> = None | Some(value: T) {
    function GetOr(default: T): T {
      match this
      case Some(v) => v
      case None => default
    }
  }

  /** `m[k]` when `k` is a key, `d` otherwise. */
  function GetOr<K, V>(m: map<K, V>, k: K, d: V): V {
    if k in m then m[k] else d
  }
}
